=== FILE: README.md ===
# sparx molecular data and keyword conversion, modelled in Dafny

This project models two parts of the sparx radiative-transfer package.

- **The molecular data layer** (`lib/sparx/physics.py`):
  - a `Molecule` is built by name from a LAMDA-format data file: name, weight, energy-level table, radiative-line table and one block per collisional partner (`Coll`);
  - the molecule is then queried for:
    - its partition function, Boltzmann level populations and Boltzmann ratios;
    - collisional down and up rates;
    - the critical density of a line;
    - thermal velocity and frequency widths;
    - the thermal absorption cross-section;
  - the free helpers it uses are modelled too: the thermal width, the two Doppler conversions, the Gaussian velocity profile and the three-vector helpers.
- **The keyword conversion layer** (`lib/sparx/inputs.py`):
  - the key types that check and convert keyword values: integers, positive integers, indices, floats, positive floats, fractions, molecules, geometries, options, and physical values with units;
  - the recursive format-driven `convert_input`;
  - `Key` objects;
  - the global input dictionary and its reset.

Modules:

- `Wrappers` (wrappers.dfy): `Option` and `Result`.
- `Physics` (physics.dfy):
  - the physical constants;
  - the exponential, passed as a value of the subset type `ExpFn` whose laws are positivity, `exp(a + b) == exp(a) * exp(b)` and `exp(x) <= 1` for `x <= 0`;
  - the square root, passed as a function with `IsSqrt`;
  - the free physics helpers.
- `Text` (text.dfy): Python's `str.strip`, `str.split()`, `str.split(sep)`, `join`, `int()` and `float()` on text, as functions on `seq<char>`.
- `Molecules` (molecule.dfy):
  - the data model: `Level`, `RadLine`, `CollTrans`, `Coll`, `Molecule` and `LoadError`;
  - `load_file` as a functional specification `Load`, staged as levels, lines, partners;
  - the imperative reader proved equal to it. The reader is made of methods with loops over a line cursor (`ReadRows`, `ReadBlocks`, `ReadLevels`, `ReadLines`, `ReadPartnerTable`, `LoadFile`, `NewMolecule`).
- `MoleculeFacts` (loaded.dfy): what a successful load guarantees (`Wf`) and which malformed files it refuses.
- `Queries` (queries.dfy): the query methods. They read the molecule and never change it, so they are functions, except the search loop of `get_crit_dens`, which is a method.
- `Inputs` (inputs.dfy): the key types, `convert_input` (a function plus methods with the source's loops), `Key`, and the `InputDict` class standing for `INP_DICT`.

The file is given as its sequence of lines. Reading past the end of the file gives the empty line, as `readline()` does. Level, line and transition indices are stored as the file value minus one, as the source stores them. They are read with Python's negative-index semantics (`PyAt`).

## Model

| member | source | states |
|---|---|---|
| Physics.ThermalVWidth | lib/sparx/physics.py:128-136 | the width is non-negative, its square is 2kT/m, and it is positive for a positive temperature and mass |
| Physics.DopplerVel2Frq | lib/sparx/physics.py:109-115 | definition of Doppler_vel2frq, f0 sqrt((c - v)/(c + v)); characterised by DopplerRedshift and the two round trips |
| Physics.DopplerFrq2Vel | lib/sparx/physics.py:119-126 | definition of Doppler_frq2vel, c (1 - (f/f0)^2)/(1 + (f/f0)^2); characterised by the two round trips |
| Physics.DopplerQuotient | lib/sparx/physics.py:109-115 | for -c < v <= c the quotient (c - v)/(c + v) under the root is non-negative, at most 1 for v >= 0 and positive for v < c |
| Physics.DopplerRedshift | lib/sparx/physics.py:109-115 | a receding source (0 <= v < c) is seen at a frequency in (0, f0] |
| Physics.DopplerVelocityRoundTrip | lib/sparx/physics.py:109-126 | Doppler_frq2vel(f0, Doppler_vel2frq(f0, v)) == v for every -c < v < c |
| Physics.DopplerFrequencyRoundTrip | lib/sparx/physics.py:109-126 | for f0 > 0 and f >= 0 the velocity read from f lies in (-c, c] and shifting f0 by it gives f back |
| Physics.GaussianVProfile | lib/sparx/physics.py:151-161 | for a positive width the profile is positive and at most its peak 1/(dv sqrt(pi)), which it takes at v = 0 |
| Physics.Vec3ScaleDotProd | lib/sparx/physics.py:176-180 | scaling a factor scales the component-wise product, and the product is symmetric |
| Text.Strip | lib/sparx/physics.py:212 | the result has no leading or trailing whitespace, is no longer than the input, and equals an input that already has none |
| Text.StripIsInfix | lib/sparx/physics.py:212 | str.strip() returns an infix of its input with only whitespace outside it |
| Text.StripKeepsText | lib/sparx/physics.py:212-217 | stripping removes only whitespace: the non-space characters are kept in order |
| Text.Split | lib/sparx/physics.py:237 | str.split() yields no empty field |
| Text.SplitWordsHaveNoSpace | lib/sparx/physics.py:237 | no field of str.split() contains whitespace |
| Text.SplitKeepsAllText | lib/sparx/physics.py:237 | the fields of str.split() concatenated are the input without its whitespace |
| Text.SplitWordsAreRuns | lib/sparx/physics.py:237 | each field of str.split() is a maximal run of the input (whitespace or an end of the text on both sides), and the fields start in order, each after the previous one ends; with SplitKeepsAllText this fixes the split |
| Text.SplitOn | lib/sparx/physics.py:228 | str.split("+") yields at least one field and no field holds the separator |
| Text.JoinSplitOn | lib/sparx/physics.py:228-229 | joining the fields of str.split(sep) with sep gives the input back |
| Text.ParseInt | lib/sparx/physics.py:223 | definition of Python 2's int() on text: surrounding whitespace stripped, optional sign, whitespace after the sign skipped, decimal digits; characterised by ParseIntShowInt and ParseRealOfInt |
| Text.ParseReal | lib/sparx/physics.py:217 | definition of float() on text: surrounding whitespace stripped, decimal literal with optional sign, fraction and exponent; characterised by ParseRealOfInt |
| Text.ParseIntShowInt | lib/sparx/physics.py:223 | int() reads back the decimal text of every integer |
| Text.ParseRealOfInt | lib/sparx/physics.py:217-223 | float() of text int() accepts is the same integer, except when whitespace follows the sign, where float() raises ValueError |
| Text.IntSkipsSpaceAfterSign | lib/sparx/physics.py:217-223 | int("- 5") is -5 while float("- 5") raises ValueError |
| Molecules.WavenumberEnergyValue | lib/sparx/physics.py:240 | the cm^-1-to-joule factor is (1/cm) h c, and the cm^3 factor is cm^3 |
| Molecules.Load | lib/sparx/physics.py:200-289 | definition of load_file as levels, lines and partners stages; characterised by LoadedMoleculeWf, LoadStages and the rejection lemmas |
| Molecules.ParseLevelRow | lib/sparx/physics.py:236-242 | definition of one level row; characterised by LevelRowFields, ShortLevelRowRefused and ExtraLevelColumnsIgnored |
| Molecules.ParseLineRow | lib/sparx/physics.py:258-281 | definition of one line row; characterised by LineRowFields and LineRowArityRefused |
| Molecules.ParseTransRow | lib/sparx/physics.py:340-344 | definition of one collisional-rate row; characterised by TransRowLevels and TransRowRates |
| Molecules.PartnerHead | lib/sparx/physics.py:305-310 | definition of the partner's id, species name and reference; the name is PartnerName(id) |
| Molecules.ParsePartnerHeader | lib/sparx/physics.py:302-329 | definition of the four header blocks of a partner, each value on the second line of its block |
| Molecules.ParsePartner | lib/sparx/physics.py:298-345 | definition of Coll.__init__ with its cursor; characterised by PartnerTransCount and PartnersOk |
| Molecules.ConvertUpTo | lib/sparx/physics.py:329 | a converted prefix has one value per field; a failure is a ValueError at the row's line |
| Molecules.ConvertUpToElements | lib/sparx/physics.py:329 | the conversion succeeds iff every field converts, and then value i is the conversion of field i |
| Molecules.AsReals | lib/sparx/physics.py:329 | [float(i) for i in cols] has one value per field or fails with ValueError at the line |
| Molecules.AsRealsElements | lib/sparx/physics.py:329 | the list succeeds iff every field is a float literal, and value i is float(field i) |
| Molecules.Min | lib/sparx/physics.py:283 | sorted(freqs)[0]: an element of the list no larger than any element |
| Molecules.Rows | lib/sparx/physics.py:235-242 | a table read row by row has exactly the announced number of rows |
| Molecules.RowsAllOrNothing | lib/sparx/physics.py:235-242 | a table succeeds iff every one of its rows parses, and row i is the parse of file line start+i |
| Molecules.RowsFailureStays | lib/sparx/physics.py:235-242 | once a row fails, reading more rows gives that same error (the first failure is raised) |
| Molecules.ExtraLevelColumnsIgnored | lib/sparx/physics.py:237-242 | columns after the fourth of a level row do not affect the level |
| Molecules.PartnerName | lib/sparx/physics.py:296-309 | species[id - 1] is defined exactly for -5 <= id <= 6; ids 1..6 name H2, p-H2, o-H2, e, H, He, and 0 names He |
| Molecules.Blocks | lib/sparx/physics.py:407-408 | the partner loop yields exactly ncol partners |
| Molecules.BlocksNext | lib/sparx/physics.py:407-408 | one step of the partner loop appends the next partner and moves the cursor past it, or fails for good with its error |
| Molecules.BlocksFailureStays | lib/sparx/physics.py:407-408 | a failing partner ends the whole read with its error |
| Molecules.LoadLines | lib/sparx/physics.py:244-283 | a line table that loads has at least one line (sorted(freqs)[0] needs one) |
| Molecules.ReadRows | lib/sparx/physics.py:235-242 | the `for i in range(n)` row loop returns the table Rows specifies for max(n, 0) rows |
| Molecules.ReadColl | lib/sparx/physics.py:298-345 | Coll.__init__ reads the partner and moves the cursor as ParsePartner specifies |
| Molecules.ReadBlocks | lib/sparx/physics.py:407-409 | the partner loop returns the partners and cursor Blocks specifies |
| Molecules.ReadLevels | lib/sparx/physics.py:209-242 | name, weight, level count, state header and level table are read as LoadLevels specifies |
| Molecules.ReadLines | lib/sparx/physics.py:244-283 | the line count and line table are read as LoadLines specifies |
| Molecules.ReadPartnerTable | lib/sparx/physics.py:285-289 | the partner count and the partners are read as LoadPartners specifies |
| Molecules.LoadFile | lib/sparx/physics.py:200-289 | load_file builds exactly the molecule (or the error) Load specifies |
| Molecules.NewMolecule | lib/sparx/physics.py:189-198 | a name not in the molecule list is refused; otherwise the file molecDir/name.dat is loaded, or cannot be opened |
| MoleculeFacts.LevelRowFields | lib/sparx/physics.py:237-242 | a loaded level has at least four columns, energy float(col 1) in J, weight float(col 2) and state col 3 |
| MoleculeFacts.ShortLevelRowRefused | lib/sparx/physics.py:238-239 | a level row with fewer than four columns is refused |
| MoleculeFacts.LineRowArityRefused | lib/sparx/physics.py:260-261 | a line row whose column count is not six is refused |
| MoleculeFacts.LineBetweenConsistent | lib/sparx/physics.py:267-281 | a line built between two levels keeps up, lo and A and carries freq = (Eu - El)/h, Bul = A c^2/(2 h nu^3), Blu = (gu/gl) Bul |
| MoleculeFacts.LineRowFields | lib/sparx/physics.py:258-281 | a loaded line has six columns, up/lo one less than columns 1 and 2, A from column 3, valid level indices, and the derived quantities |
| MoleculeFacts.RateColumns | lib/sparx/physics.py:344 | each stored rate is float(column) times cm^3 |
| MoleculeFacts.TransRowLevels | lib/sparx/physics.py:342-343 | a loaded transition's up and lo are one less than columns 1 and 2 |
| MoleculeFacts.TransRowRates | lib/sparx/physics.py:344 | a transition carries one rate per column after the third, each float(column) cm^3 |
| MoleculeFacts.RowsAll | lib/sparx/physics.py:235-242 | every row of a loaded table has the property every parsed row has |
| MoleculeFacts.BlocksAll | lib/sparx/physics.py:407-408 | every loaded partner has the property every parsed partner has |
| MoleculeFacts.PartnerTransCount | lib/sparx/physics.py:339-344 | a loaded partner has max(ntrans, 0) transitions |
| MoleculeFacts.LoadStages | lib/sparx/physics.py:200-289 | proof step: a successful load is the levels stage, then the lines stage at the cursor after the levels, then the partners stage after the lines |
| MoleculeFacts.LevelTable | lib/sparx/physics.py:231-242 | proof step: the levels are the level table starting at file line 7, one per announced level |
| MoleculeFacts.LineTable | lib/sparx/physics.py:249-283 | the lines are the rows after the line header, one per announced line, at least one |
| MoleculeFacts.PartnerTable | lib/sparx/physics.py:285-289 | proof step: the partners are the blocks after the partner count, one per announced partner |
| MoleculeFacts.LineParserSound | lib/sparx/physics.py:257-281 | every line the parser accepts joins two existing levels and carries the derived quantities |
| MoleculeFacts.LinesOk | lib/sparx/physics.py:257-281 | every loaded line joins two existing levels and carries the derived quantities |
| MoleculeFacts.PartnersOk | lib/sparx/physics.py:339-345 | one partner per announced partner, each with one transition per announced transition |
| MoleculeFacts.MakeMoleculeWf | lib/sparx/physics.py:218 | the assembled molecule is well formed: counts, consistent lines, mass = weight amu, min_freq the least frequency |
| MoleculeFacts.LoadedMoleculeWf | lib/sparx/physics.py:200-289 | every molecule load_file builds is well formed and keeps its name and path |
| MoleculeFacts.RowsFailsAt | lib/sparx/physics.py:235-242 | a table with a failing row fails |
| MoleculeFacts.ShortLevelRowFails | lib/sparx/physics.py:235-239 | a short row among the announced levels fails the levels stage |
| MoleculeFacts.ShortLevelRowRejected | lib/sparx/physics.py:235-239 | a file with a short row among its announced levels is refused |
| MoleculeFacts.LineRowArityRefusedAt | lib/sparx/physics.py:260-261 | a line row of the wrong arity fails at its file line |
| MoleculeFacts.LineTableFailsAt | lib/sparx/physics.py:257-261 | a failing row among the announced lines fails the line table |
| MoleculeFacts.LineRowArityFailsTable | lib/sparx/physics.py:257-261 | a wrong-arity row among the announced lines fails the line table |
| MoleculeFacts.LineRowArityFails | lib/sparx/physics.py:244-261 | a wrong-arity row among the announced lines fails the lines stage |
| MoleculeFacts.LinesFailWithRows | lib/sparx/physics.py:244-261 | proof step: a failing line table fails the lines stage |
| MoleculeFacts.LinesStageRejects | lib/sparx/physics.py:244-283 | proof step: a failing lines stage makes the whole load fail |
| MoleculeFacts.LevelCountRead | lib/sparx/physics.py:220-223 | proof step: the level count a load reports is int() of file line 5 |
| MoleculeFacts.LevelsStageRejects | lib/sparx/physics.py:209-242 | proof step: a failing levels stage makes the whole load fail |
| MoleculeFacts.LineRowArityAfterLevels | lib/sparx/physics.py:257-261 | after the levels, a wrong-arity row among the announced lines makes the load fail |
| MoleculeFacts.LineRowArityRejected | lib/sparx/physics.py:257-261 | a file with a wrong-arity row among its announced lines is refused, wherever the level table ends |
| Queries.LevelTerm | lib/sparx/physics.py:415 | a level of positive weight has a positive Boltzmann term |
| Queries.PartitionFunc | lib/sparx/physics.py:411-416 | definition of get_partition_func, the sum of g_i exp(-E_i/kT) over range(nlev); characterised by PartitionFuncPositive and BoltzmannLevelsSumToOne |
| Queries.PartitionFuncPositive | lib/sparx/physics.py:411-416 | with positive weights the partition function is positive and bounds every term |
| Queries.BoltzmannLevels | lib/sparx/physics.py:418-423 | one population per level |
| Queries.BoltzmannLevelsSumToOne | lib/sparx/physics.py:418-423 | the populations add up to one |
| Queries.BoltzmannLevelsBounds | lib/sparx/physics.py:418-423 | with positive weights every population lies in (0, 1] |
| Queries.LevelRatio | lib/sparx/physics.py:347-358 | definition of (gu/gl) exp(-(Eu - El)/kT) for a level pair; characterised by RatioOfPopulations and LevelRatioBelowWeights |
| Queries.LineRatio | lib/sparx/physics.py:425-436 | definition of Molecule.get_boltzmann_ratio; characterised by LineRatioOfPopulations |
| Queries.CollRatio | lib/sparx/physics.py:347-358 | definition of Coll.get_boltzmann_ratio over the molecule's levels; characterised by UpRateDetailedBalance |
| Queries.PopulationAt | lib/sparx/physics.py:423 | the population of a level, also at a negative index, is its term over the partition function |
| Queries.TermQuotient | lib/sparx/physics.py:423-436 | the quotient of two populations is (gu/gl) exp(-(Eu-El)/kT) |
| Queries.RatioOfProportional | lib/sparx/physics.py:425-436 | the Boltzmann ratio equals the quotient of any populations proportional to the Boltzmann terms |
| Queries.RatioOfPopulations | lib/sparx/physics.py:418-436 | the Boltzmann ratio of two levels is the quotient of their Boltzmann populations |
| Queries.LineRatioOfPopulations | lib/sparx/physics.py:425-436 | Molecule.get_boltzmann_ratio of a line is pops[up]/pops[lo] |
| Queries.Interp1d | lib/sparx/physics.py:372-374 | definition of scipy's interp1d on strictly increasing samples; characterised by Interp1dOnSegment and Interp1dWithinSamples |
| Queries.LerpEnds | lib/sparx/physics.py:373-374 | the interpolating line passes through both samples |
| Queries.LerpBetween | lib/sparx/physics.py:373-374 | between two samples the interpolated value lies between their values |
| Queries.Interp1dOnSegment | lib/sparx/physics.py:373-374 | interp1d at a point of a segment is that segment's line |
| Queries.Interp1dWithinSamples | lib/sparx/physics.py:372-374 | the interpolated value lies between the least and the greatest sample value |
| Queries.DownRate | lib/sparx/physics.py:360-376 | definition of get_down_rate: clamp, interpolate when ntemp > 1, else the first rate; characterised by the four DownRate lemmas |
| Queries.Rates | lib/sparx/physics.py:366-376 | a transition has one rate per temperature |
| Queries.DownRateClamped | lib/sparx/physics.py:365-368 | below the first temperature the first rate, above the last the last rate, with one temperature always the first rate |
| Queries.DownRateOnSegment | lib/sparx/physics.py:369-374 | inside the table the down rate is the linear interpolation of the bracketing samples and lies between their rates |
| Queries.DownRateAtSample | lib/sparx/physics.py:360-376 | at a tabulated temperature the down rate is the tabulated rate |
| Queries.DownRateWithinRates | lib/sparx/physics.py:360-376 | no extrapolation: at every temperature the rate lies between the least and the greatest tabulated rate of the transition |
| Queries.UpRateAsWritten | lib/sparx/physics.py:378-386 | definition of get_up_rate as written (down rate of transition 0); shown wrong by UpRateAsWrittenCounterexample |
| Queries.UpRate | lib/sparx/physics.py:378-386 | definition of get_up_rate as its docstring states it (down rate of itrans); characterised by UpRateDetailedBalance |
| Queries.FlowsBalance | lib/sparx/physics.py:378-386 | for populations proportional to the Boltzmann terms, pops[lo] K_lu == pops[up] K_ul |
| Queries.UpRateDetailedBalance | lib/sparx/physics.py:378-386 | detailed balance: in thermal equilibrium n_l K_lu == n_u K_ul for every transition |
| Queries.UpRateAsWrittenAgrees | lib/sparx/physics.py:385-386 | the up rate as written equals the intended one iff transition 0 and itrans have the same down rate (given a non-zero ratio) |
| Queries.UpRateAsWrittenCounterexample | lib/sparx/physics.py:385-386 | a concrete partner where the up rate as written is 1.0, the intended 2.0, and detailed balance fails |
| Queries.FirstJoining | lib/sparx/physics.py:397-401 | the first transition joining the line's two levels, or the end when none does |
| Queries.CritDensOf | lib/sparx/physics.py:388-404 | definition of get_crit_dens with its two error paths; characterised by CritDensOfFound and CritDensOfMissing |
| Queries.CritDensOfFound | lib/sparx/physics.py:388-404 | with the first joining transition found, the critical density times its down rate is A_ul, or a zero rate divides by zero |
| Queries.CritDensOfMissing | lib/sparx/physics.py:402-403 | there is no counterpart exactly when no announced transition joins the line's levels |
| Queries.CritDens | lib/sparx/physics.py:388-404 | the search loop with break returns what CritDensOf specifies |
| Queries.MolThermalVWidth | lib/sparx/physics.py:471-475 | non-negative, square 2kT/m for the molecule's mass, positive for T, m > 0 |
| Queries.ThermalFWidth | lib/sparx/physics.py:463-469 | the frequency width is non-negative |
| Queries.ThermalFWidthBounds | lib/sparx/physics.py:463-469 | for a positive line frequency the width is nu - Doppler_vel2frq(nu, dv) and lies in [0, nu) |
| Queries.LevelRatioBelowWeights | lib/sparx/physics.py:425-436 | for an upper level at least as high, the Boltzmann ratio lies in (0, gu/gl] |
| Queries.LineEnergyGap | lib/sparx/physics.py:268-270 | a line of positive frequency goes from a higher to a lower level |
| Queries.EinsteinBNonNegative | lib/sparx/physics.py:275 | a non-negative A at a positive frequency gives a non-negative Bul |
| Queries.LineBCoefficients | lib/sparx/physics.py:273-281 | a loaded line has Bul >= 0 and Blu = (gu/gl) Bul |
| Queries.SigmaFor | lib/sparx/physics.py:477-488 | definition of the cross-section formula for given populations; characterised by SigmaForNonNegative |
| Queries.ThermalSigmaNu | lib/sparx/physics.py:477-488 | definition of get_thermal_sigmanu with Boltzmann populations; characterised by ThermalSigmaNuNonNegative |
| Queries.SigmaFormulaNonNegative | lib/sparx/physics.py:488 | the cross-section formula is non-negative when the population ratio does not exceed gu/gl |
| Queries.LinePopulationsBound | lib/sparx/physics.py:481-486 | in equilibrium the lower population is positive and pops[up]/pops[lo] <= gu/gl for a line of positive frequency |
| Queries.SigmaForNonNegative | lib/sparx/physics.py:477-488 | for populations without inversion the cross section is non-negative |
| Queries.ThermalSigmaNuNonNegative | lib/sparx/physics.py:477-488 | the thermal cross section is non-negative: thermal equilibrium has no population inversion |
| Inputs.IntOf | lib/sparx/inputs.py:100-103 | int(): integers unchanged; a refusal is NotANumber of the value |
| Inputs.RealOf | lib/sparx/inputs.py:125-128 | float(): floats unchanged; a refusal is NotANumber of the value |
| Inputs.IntOfTruncates | lib/sparx/inputs.py:100-103 | int() of a float truncates toward zero |
| Inputs.PhysCall | lib/sparx/inputs.py:66-88 | succeeds iff the text matches and its unit is empty or known (the source's pattern never yields an empty unit; see "Left out"); the value is the number times the unit's factor; an unknown unit raises BadUnit naming it and the type |
| Inputs.PhysCallReferenceUnit | lib/sparx/inputs.py:66-88 | a number in the reference unit is returned unchanged |
| Inputs.PhysCallRatio | lib/sparx/inputs.py:66-88 | one number in two units converts in the ratio of the units' factors |
| Inputs.ReferenceUnitsAreOne | lib/sparx/inputs.py:222-325 | every unit table maps its reference unit to 1 |
| Inputs.PosIntOf | lib/sparx/inputs.py:107-112 | accepted iff int() succeeds and is > 0, giving int(v); otherwise "Values must be > 0" |
| Inputs.IndexValueOf | lib/sparx/inputs.py:116-121 | accepted iff int() succeeds and is >= 0, giving int(v) |
| Inputs.PosFltOf | lib/sparx/inputs.py:132-137 | accepted iff float() succeeds and is > 0, giving float(v) |
| Inputs.FractionOf | lib/sparx/inputs.py:141-146 | accepted iff float() succeeds and lies in [0, 1], giving float(v) |
| Inputs.MemberOf | lib/sparx/inputs.py:170-183 | the value is returned unchanged iff it is one of the allowed names; otherwise NotAvailable |
| Inputs.Apply | lib/sparx/inputs.py:100-183 | definition of calling a key type on a value, dispatching to the converters above |
| Inputs.ApplyIdempotent | lib/sparx/inputs.py:100-183 | a property of the model rather than a promise of the source: a value accepted by a non-unit key type is accepted again unchanged |
| Inputs.PosIntOfShowInt | lib/sparx/inputs.py:107-112 | the text of n passes PosInt as n iff n > 0, otherwise "Values must be > 0" |
| Inputs.IndexOfShowInt | lib/sparx/inputs.py:116-121 | the text of n passes Index as n iff n >= 0, otherwise "Values must be >= 0" |
| Inputs.ConvertInput | lib/sparx/inputs.py:28-45 | an empty format list raises; a list format yields a list |
| Inputs.ConvertEach | lib/sparx/inputs.py:35-37 | a one-element format converts into one value per element |
| Inputs.ConvertPairwise | lib/sparx/inputs.py:38-40 | an n-element format converts into n values |
| Inputs.ConvertEachElements | lib/sparx/inputs.py:35-37 | succeeds iff every element converts with the one format, and value i is element i converted |
| Inputs.ConvertPairwiseElements | lib/sparx/inputs.py:38-40 | succeeds iff the input has at least n elements and each converts with its own format; value i is element i converted by format i |
| Inputs.ConvertEachFailureStays | lib/sparx/inputs.py:35-37 | the first failing element's error is the one raised |
| Inputs.ConvertPairwiseFailureStays | lib/sparx/inputs.py:38-40 | the first failing position's error is the one raised |
| Inputs.ConvertInputLength | lib/sparx/inputs.py:31-42 | a list format needs a sequence input; the result has one value per element, or one per format |
| Inputs.Convert | lib/sparx/inputs.py:28-45 | the recursive converter returns what ConvertInput specifies |
| Inputs.ConvertAll | lib/sparx/inputs.py:35-37 | the element loop returns what ConvertEach specifies |
| Inputs.ConvertPairs | lib/sparx/inputs.py:38-40 | the format loop returns what ConvertPairwise specifies |
| Inputs.NewKey | lib/sparx/inputs.py:418-437 | a keyword is made iff its given default converts; otherwise the key type's own error is raised |
| Inputs.KeyCall | lib/sparx/inputs.py:439-444 | the converted value iff the key type accepts the input; otherwise an error naming keyword and input |
| Inputs.KeyDefaultConverts | lib/sparx/inputs.py:418-444 | a keyword's given default is accepted when the keyword is called on it |
| Inputs.InputDict.constructor | lib/sparx/inputs.py:16 | the dictionary starts empty |
| Inputs.InputDict.Reset | lib/sparx/inputs.py:21-23 | reset_inputs leaves the dictionary empty |

## Left out

- File I/O: `open` and `readline` are replaced by the file's list of lines (a map from path to lines in `NewMolecule`). A missing file is the `CannotOpen` error.
- `MOLEC_LIST`, `MOLEC_DIR` and `GEOM_DICT` are module globals in the source. Here they are parameters: the molecule list and directory of `NewMolecule`, and the collections carried by the `Molec` and `Geom` converters.
- `exp` and `sqrt` are not defined here. They are parameters constrained by the laws the proofs use (`ExpLaws`, `IsSqrt`).
- Floats are exact reals. Rounding, overflow, `inf` and `nan` are not modelled.
- `int()` and `float()` on text strip surrounding whitespace as Python does and accept decimal literals; `int()` also skips whitespace between the sign and the digits, as Python 2's does. `float()`'s `inf`, `infinity` and `nan` spellings are not accepted.
- ParseInt: every integer is read the same way. Python 2 hands text whose value overflows a machine word to its long-integer parser, which also accepts a trailing `L` or `l` (int("99999999999999999999L") succeeds); `ParseInt` refuses that suffix.
- The exception messages of `physics.py` are reduced to error kinds with the file line, as `LoadError` shows.
  - The level-table message at physics.py:239 refers to an undefined `name`; it is modelled as the `LevelColumns` error that the check raises either way.
  - The string raised at physics.py:403 is modelled as `NoCounterpart`.
- `Molecule.__repr__` (physics.py:438-461) is a formatted text dump with no behaviour worth proving. It is not modelled.
- The other free functions of physics.py are not part of this model: Stefan-Boltzmann, Planck, Wien, `gaussian_fprofile`, `Keplerian_velocity`, `Vec3_Normalize`.

The members below take a source exception as a precondition instead of returning it as an error. Each line names what is excluded.

- ThermalVWidth: a zero mass (ZeroDivisionError) and 2kT/m < 0 (`math.sqrt` raises ValueError) are excluded.
- MolThermalVWidth: the same two cases as ThermalVWidth, for the molecule's mass.
- ThermalFWidth: a line index outside the line list (IndexError), a zero mass, 2kT/m < 0, and a thermal velocity above c (where `Doppler_vel2frq` takes the root of a negative number) are excluded.
- DopplerVel2Frq: v <= -c (division by zero, or the root of a negative number) and v > c (the root of a negative number) are excluded.
- DopplerFrq2Vel: f0 = 0 (ZeroDivisionError) is excluded.
- Vec3DotProd: lists shorter than three elements (IndexError) are excluded. The same holds for Vec3Scale.
- GaussianVProfile: a zero width (ZeroDivisionError) is excluded. The profile's unit area is not stated: integrals over the reals are outside this model; only its positivity, its peak and its bound are proved.
- LevelTerm: T = 0 (ZeroDivisionError) is excluded.
- PartitionTerms: T = 0, and a level count above the stored levels (IndexError), are excluded.
- PartitionFunc: the same cases as PartitionTerms.
- BoltzmannLevels: additionally a zero partition function (ZeroDivisionError) is excluded. The same holds for RatioOfPopulations and PopulationAt.
- LevelRatio: T = 0, a level index out of range (IndexError) and a zero lower-level weight (ZeroDivisionError) are excluded, through `LevelPair`.
- LineRatio: the LevelRatio cases, and a line index out of range, are excluded. The same holds for LineRatioOfPopulations.
- CollRatio: the LevelRatio cases, and a transition index out of range, are excluded.
- UpRate: the CollRatio cases and the `RatesOk` condition below are excluded. The same holds for UpRateAsWritten.
- DownRate: scipy's `interp1d` is replaced by explicit piecewise-linear interpolation. A transition index outside the transition list (IndexError) is excluded.
  - `RatesOk` is required on every branch: at least one temperature, strictly increasing temperatures, a second temperature when `ntemp > 1`, and one rate per temperature in every transition of the partner.
  - This is stronger than the source. The two clamping branches and the single-temperature branch never call scipy and only need a non-empty rate row for `itrans`. Unsorted temperatures, and rows of other lengths or of other transitions, are not modelled.
  - When the file announces fewer temperatures than it lists, scipy is still called on the whole list, as in the source.
- CritDensOf: `RatesOk` is required here too, also on the `NoCounterpart` path, which in the source reads no rate at all. A line index outside the line list (IndexError) and fewer stored transitions than `ntrans` (IndexError) are excluded.
  - A zero down rate is the `DivisionByZero` error on every branch. In the source that is true on the clamping and single-temperature branches. On the interpolated branch, `interp1d` returns a numpy value, and A/0 gives `inf` with a warning instead.
- CritDens: the same exclusions as CritDensOf; they hold for CritDensOfFound and CritDensOfMissing too.
- SigmaFor: a zero line frequency and a zero thermal width (ZeroDivisionError) are excluded. So are a line index or a level index outside the population list (IndexError), and the ThermalVWidth mass cases.
- ThermalSigmaNu: the SigmaFor cases and the BoltzmannLevels cases are excluded. A line whose levels lie beyond the first `nlev` levels is excluded too.
- ThermalSigmaNuNonNegative proves the cross section is at least zero, not strictly positive: the exponential's laws give `exp(x) <= 1`, not `exp(x) < 1` for `x < 0`.
- PhysCall: the regular expression of `PhysVal` is abstracted as a `Splitter` parameter returning the number and the unit. The grammar of the pattern itself is not modelled.
  - The pattern at inputs.py:60 requires a unit starting with a letter, so a real match never has an empty unit. The model keeps the source's `len(unit) > 0` branch, whose empty-unit success is unreachable in the source.
  - Examples of what the pattern does: '10' is refused as not a value-unit pair, while '1e5' backtracks to the number 1 with the unit 'e5', which is then refused as an unknown unit.
  - The `Splitter` also stands for the `float()` of the number group (inputs.py:79). The exponent group allows a decimal point, so '1e1.5m' matches and that `float()` raises ValueError; the model reports that case as `NotValuePair`.
- ReferenceUnitsAreOne: the unit tables take their factors from the physics module's `Const` and `Units` values, as the source does; the factors are exact reals.
- `Type.Option` (inputs.py:362-371) takes its option list already as strings. The `str` conversion of `Option.__init__` is not modelled.
- These key types are not part of this model: `NewFile` and `OldFile` (file-system checks), `Bool`, `Custom`, `KappFLaw` and `KappLLaw`. They evaluate Python text with `eval` or test the file system.
- The `except: raise` of `Key.__init__` re-raises the key type's own error, which `NewKey` returns. Python's traceback is not modelled.

## Findings

| source | as written | input that shows it | evidently intended | confidence | as-written member | corrected member |
|---|---|---|---|---|---|---|
| lib/sparx/physics.py:385 | `get_up_rate(itrans, T_k)` multiplies the Boltzmann ratio of `itrans` by the down rate of transition 0 | a partner with rates 1 (transition 0) and 2 (transition 1) at 10 K: the up rate of transition 1 is 1 x ratio instead of 2 x ratio, and n_l K_lu != n_u K_ul | the down rate of the same transition, `get_down_rate(itrans, T_k)`, as the docstring's K_lu / K_ul = Boltzmann ratio states | high; not executed | Queries.UpRateAsWrittenCounterexample | Queries.UpRateDetailedBalance |

=== FILE: inputs.dfy ===
/** The keyword-value conversion layer of the sparx input module: the
    format-driven converter, the range and membership validators, values
    with units, keywords, and the global input dictionary. */
module Inputs {
  import opened Wrappers
  import opened Text
  import Physics

  // ------------------------------------------------------------ values

  /** The Python values a keyword receives: text, numbers, lists (or tuples)
      of values, and None. */
  datatype Value = Str(s: string) | Int(i: int) | Real(x: real) | List(items: seq<Value>) | NoneValue

  /** The exceptions raised while converting. */
  datatype InputError =
    | NotANumber(v: Value)               // int() / float() refuse the value
    | OutOfRange(message: string)        // a range validator refuses the number
    | NotValuePair(v: Value)             // PhysVal: not text, or not "<number><unit>"
    | BadUnit(unit: string, typeName: string)
    | NotAvailable(v: Value)             // Molec, Geom and Option refuse the value
    | EmptyFormat                        // "Length of format list is 0"
    | NotASequence(v: Value)             // len() or [] on a value that has neither
    | IndexOutOfRange(index: nat)        // input[i] past the end of the input
    | KeywordError(name: string, input: Value)

  /** `int(v)`: integers as they are, floats truncated toward zero, text
      parsed as a decimal integer literal. */
  function IntOf(v: Value): (r: Result<int, InputError>)
    ensures r.Failure? ==> r.error == NotANumber(v)
    ensures v.Int? ==> r == Success(v.i)
  {
    match v
    case Int(i) => Success(i)
    case Real(x) => Success(if x >= 0.0 then x.Floor else -((-x).Floor))
    case Str(s) =>
      (match ParseInt(s)
       case Some(n) => Success(n)
       case None => Failure(NotANumber(v)))
    case _ => Failure(NotANumber(v))
  }

  /** `float(v)`: integers converted exactly, floats as they are, text parsed
      as a decimal float literal. */
  function RealOf(v: Value): (r: Result<real, InputError>)
    ensures r.Failure? ==> r.error == NotANumber(v)
    ensures v.Real? ==> r == Success(v.x)
  {
    match v
    case Int(i) => Success(i as real)
    case Real(x) => Success(x)
    case Str(s) =>
      (match ParseReal(s)
       case Some(x) => Success(x)
       case None => Failure(NotANumber(v)))
    case _ => Failure(NotANumber(v))
  }

  /** int() truncates a float toward zero. */
  lemma IntOfTruncates(x: real)
    ensures IntOf(Real(x)).Success?
    ensures var n := IntOf(Real(x)).value;
      (x >= 0.0 ==> n as real <= x < n as real + 1.0) && (x < 0.0 ==> n as real - 1.0 < x <= n as real)
  {
  }

  // -------------------------------------------------------- values with units

  /** A PhysVal type: its name, its reference unit and the factor that takes
      a number in each known unit to the reference unit. */
  datatype PhysVal = PhysVal(name: string, unit: string, convs: map<string, real>)

  /** The regular-expression match of "<number><unit>" at the start of a
      text: the number and the unit, or None when the text does not start
      with a number followed by a unit. */
  type Splitter = string -> Option<(real, string)>

  /** PhysVal.__call__: the number in the reference unit. */
  function PhysCall(pv: PhysVal, split: Splitter, v: Value): (r: Result<real, InputError>)
    ensures r.Success? <==>
      v.Str? && split(v.s).Some? && (split(v.s).value.1 == [] || split(v.s).value.1 in pv.convs)
    ensures r.Success? && split(v.s).value.1 != [] ==> r.value == split(v.s).value.0 * pv.convs[split(v.s).value.1]
    ensures r.Success? && split(v.s).value.1 == [] ==> r.value == split(v.s).value.0
    ensures v.Str? && split(v.s).Some? && split(v.s).value.1 != [] && split(v.s).value.1 !in pv.convs
      ==> r == Failure(BadUnit(split(v.s).value.1, pv.name))
  {
    if !v.Str? then Failure(NotValuePair(v))
    else match split(v.s)
      case None => Failure(NotValuePair(v))
      case Some((x, unit)) =>
        if |unit| > 0 then
          if unit in pv.convs then Success(x * pv.convs[unit])
          else Failure(BadUnit(unit, pv.name))
        else Success(x)
  }

  /** A number written in the type's own reference unit comes back
      unchanged. */
  lemma PhysCallReferenceUnit(pv: PhysVal, split: Splitter, s: string, x: real)
    requires split(s) == Some((x, pv.unit)) && pv.unit != []
    requires KnowsReferenceUnit(pv)
    ensures PhysCall(pv, split, Str(s)) == Success(x)
  {
  }

  /** Two texts naming the same number in two known units convert to values
      in the ratio of their factors. */
  lemma PhysCallRatio(pv: PhysVal, split: Splitter, s: string, t: string, x: real, u: string, w: string)
    requires split(s) == Some((x, u)) && split(t) == Some((x, w)) && u != [] && w != []
    requires u in pv.convs && w in pv.convs && pv.convs[w] != 0.0
    ensures PhysCall(pv, split, Str(s)).Success? && PhysCall(pv, split, Str(t)).Success?
    ensures PhysCall(pv, split, Str(s)).value * pv.convs[w] == PhysCall(pv, split, Str(t)).value * pv.convs[u]
  {
    assert x * pv.convs[u] * pv.convs[w] == x * pv.convs[w] * pv.convs[u];
  }

  /** The unit tables of the Type container, built on the physics module's
      constants and unit factors. */
  function Angle(): PhysVal {
    PhysVal("Angle", "rad", map[
      "asec" := Physics.PI / (180.0 * 60.0 * 60.0), "amin" := Physics.PI / (180.0 * 60.0),
      "deg" := Physics.PI / 180.0, "rad" := 1.0, "pi" := Physics.PI])
  }

  function Velo(): PhysVal {
    PhysVal("Velo", "ms^-1", map["cms^-1" := 1.0e-2, "ms^-1" := 1.0, "kms^-1" := 1.0e3, "c" := Physics.C])
  }

  function Length(): PhysVal {
    PhysVal("Length", "m", map[
      "A" := 1.0e-10, "nm" := 1.0e-9, "um" := 1.0e-6, "mm" := 1.0e-3, "cm" := 1.0e-2,
      "m" := 1.0, "km" := 1.0e3, "Rearth" := Physics.REARTH, "Rsun" := Physics.RSUN, "au" := Physics.AU,
      "ly" := 9.4605284e15, "pc" := Physics.PC, "kpc" := Physics.PC * 1.0e3, "Mpc" := Physics.PC * 1.0e6,
      "Gpc" := Physics.PC * 1.0e9])
  }

  function Mass(): PhysVal {
    PhysVal("Mass", "kg", map[
      "amu" := Physics.AMU, "me" := Physics.ME, "mp" := Physics.MP,
      "g" := 1.0e-3, "kg" := 1.0, "Msun" := Physics.MSUN])
  }

  function NumDens(): PhysVal {
    PhysVal("NumDens", "m^-3", map["cm^-3" := 1.0e6, "m^-3" := 1.0])
  }

  function Temp(): PhysVal {
    PhysVal("Temp", "K", map["K" := 1.0])
  }

  function Freq(): PhysVal {
    PhysVal("Freq", "Hz", map["Hz" := 1.0, "kHz" := 1.0e3, "MHz" := 1.0e6, "GHz" := 1.0e9, "THz" := 1.0e12])
  }

  function Time(): PhysVal {
    PhysVal("Time", "s", map[
      "ns" := 1.0e-9, "us" := 1.0e-6, "ms" := 1.0e-3, "s" := 1.0,
      "m" := Physics.MINUTE, "h" := Physics.HOUR, "day" := Physics.DAY, "yr" := Physics.YEAR,
      "Myr" := 1.0e6 * Physics.YEAR, "Gyr" := 1.0e9 * Physics.YEAR])
  }

  function Opacity(): PhysVal {
    PhysVal("Opacity", "m^2kg^-1", map["cm^2g^-1" := 0.1, "m^2kg^-1" := 1.0])
  }

  function Luminosity(): PhysVal {
    PhysVal("Luminosity", "Js^-1", map["Js^-1" := 1.0, "Lsun" := Physics.LSUN])
  }

  /** The PhysVal types of the Type container. */
  function PhysTypes(): seq<PhysVal> {
    [Angle(), Velo(), Length(), Mass(), NumDens(), Temp(), Freq(), Time(), Opacity(), Luminosity()]
  }

  /** The table knows the reference unit, with factor 1. */
  predicate KnowsReferenceUnit(pv: PhysVal) {
    pv.unit in pv.convs && pv.convs[pv.unit] == 1.0
  }

  /** Every table of the Type container knows its own reference unit, so a
      number written in that unit comes back unchanged. */
  lemma ReferenceUnitsAreOne()
    ensures forall pv :: pv in PhysTypes() ==> KnowsReferenceUnit(pv)
  {
    assert KnowsReferenceUnit(Angle());
    assert KnowsReferenceUnit(Velo());
    assert KnowsReferenceUnit(Length());
    assert KnowsReferenceUnit(Mass());
    assert KnowsReferenceUnit(NumDens());
    assert KnowsReferenceUnit(Temp());
    assert KnowsReferenceUnit(Freq());
    assert KnowsReferenceUnit(Time());
    assert KnowsReferenceUnit(Opacity());
    assert KnowsReferenceUnit(Luminosity());
  }

  // ---------------------------------------------------------- converters

  /** The key types a value can be converted by. Molec and Geom carry the
      collection they check against (the list of molecules with data, the
      keys of the geometry table); Option carries its options. */
  datatype Converter =
    | Integer | PosInt | Index | Float | PosFlt | Fraction
    | Molec(molecules: seq<string>)
    | Geom(geometries: set<string>)
    | OptionOf(opts: seq<string>)
    | Phys(pv: PhysVal, split: Splitter)

  /** ClassPosInt: int(v) when it is positive. */
  function PosIntOf(v: Value): (r: Result<Value, InputError>)
    ensures r.Success? <==> IntOf(v).Success? && IntOf(v).value > 0
    ensures r.Success? ==> r.value == Int(IntOf(v).value)
  {
    var n :- IntOf(v);
    if n <= 0 then Failure(OutOfRange("Values must be > 0")) else Success(Int(n))
  }

  /** ClassIndex: int(v) when it is not negative. */
  function IndexValueOf(v: Value): (r: Result<Value, InputError>)
    ensures r.Success? <==> IntOf(v).Success? && IntOf(v).value >= 0
    ensures r.Success? ==> r.value == Int(IntOf(v).value)
  {
    var n :- IntOf(v);
    if n < 0 then Failure(OutOfRange("Values must be >= 0")) else Success(Int(n))
  }

  /** ClassPosFlt: float(v) when it is positive. */
  function PosFltOf(v: Value): (r: Result<Value, InputError>)
    ensures r.Success? <==> RealOf(v).Success? && RealOf(v).value > 0.0
    ensures r.Success? ==> r.value == Real(RealOf(v).value)
  {
    var x :- RealOf(v);
    if x <= 0.0 then Failure(OutOfRange("Values must be > 0")) else Success(Real(x))
  }

  /** ClassFraction: float(v) when it lies in [0, 1]. */
  function FractionOf(v: Value): (r: Result<Value, InputError>)
    ensures r.Success? <==> RealOf(v).Success? && 0.0 <= RealOf(v).value <= 1.0
    ensures r.Success? ==> r.value == Real(RealOf(v).value)
  {
    var x :- RealOf(v);
    if x < 0.0 || x > 1.0 then Failure(OutOfRange("Values must be >= 0 and <= 1")) else Success(Real(x))
  }

  /** ClassMolec, ClassGeom and Type.Option: the value itself when it is one
      of the allowed names. */
  function MemberOf(allowed: set<string>, v: Value): (r: Result<Value, InputError>)
    ensures r.Success? <==> v.Str? && v.s in allowed
    ensures r.Success? ==> r.value == v
    ensures r.Failure? ==> r.error == NotAvailable(v)
  {
    if v.Str? && v.s in allowed then Success(v) else Failure(NotAvailable(v))
  }

  /** The names a membership converter accepts. */
  function Allowed(c: Converter): set<string>
    requires c.Molec? || c.Geom? || c.OptionOf?
  {
    match c
    case Molec(ms) => set i | 0 <= i < |ms| :: ms[i]
    case Geom(gs) => gs
    case OptionOf(os) => set i | 0 <= i < |os| :: os[i]
  }

  /** Calling a key type on a value. */
  function Apply(c: Converter, v: Value): Result<Value, InputError> {
    match c
    case Integer => var n :- IntOf(v); Success(Int(n))
    case PosInt => PosIntOf(v)
    case Index => IndexValueOf(v)
    case Float => var x :- RealOf(v); Success(Real(x))
    case PosFlt => PosFltOf(v)
    case Fraction => FractionOf(v)
    case Phys(pv, split) => var x :- PhysCall(pv, split, v); Success(Real(x))
    case _ => MemberOf(Allowed(c), v)
  }

  /** A value a converter other than a PhysVal has accepted is accepted
      again unchanged: these converters are projections onto the values
      they accept. (A PhysVal returns a float, which is not text.) */
  lemma ApplyIdempotent(c: Converter, v: Value)
    requires !c.Phys? && Apply(c, v).Success?
    ensures Apply(c, Apply(c, v).value) == Apply(c, v)
  {
  }

  /** The text of a positive integer passes ClassPosInt and gives that
      integer back; the text of any other integer is refused as out of
      range. */
  lemma PosIntOfShowInt(n: int)
    ensures n > 0 ==> Apply(PosInt, Str(ShowInt(n))) == Success(Int(n))
    ensures n <= 0 ==> Apply(PosInt, Str(ShowInt(n))) == Failure(OutOfRange("Values must be > 0"))
  {
    ParseIntShowInt(n);
  }

  /** The text of an integer passes ClassIndex exactly when it is not
      negative. */
  lemma IndexOfShowInt(n: int)
    ensures n >= 0 ==> Apply(Index, Str(ShowInt(n))) == Success(Int(n))
    ensures n < 0 ==> Apply(Index, Str(ShowInt(n))) == Failure(OutOfRange("Values must be >= 0"))
  {
    ParseIntShowInt(n);
  }

  // ----------------------------------------------------------- convert_input

  /** The format convert_input follows: a key type, or a list of formats. */
  datatype Format = Conv(c: Converter) | Formats(fs: seq<Format>)

  /** The elements len() and [] see: those of a list, or the one-character
      texts of a text. */
  function Items(v: Value): Option<seq<Value>> {
    match v
    case List(items) => Some(items)
    case Str(s) => Some(seq(|s|, i requires 0 <= i < |s| => Str([s[i]])))
    case _ => None
  }

  /** convert_input: a key type is applied to the input; a one-element list
      of formats is applied to every element of the input; a longer list
      applies its i-th format to the i-th element; an empty list raises. */
  function ConvertInput(f: Format, v: Value): (r: Result<Value, InputError>)
    ensures f == Formats([]) ==> r == Failure(EmptyFormat)
    ensures f.Formats? && r.Success? ==> r.value.List?
    decreases f, 2, 0
  {
    match f
    case Conv(c) => Apply(c, v)
    case Formats(fs) =>
      if |fs| == 0 then Failure(EmptyFormat)
      else
        var items :- (match Items(v) case Some(xs) => Success(xs) case None => Failure(NotASequence(v)));
        if |fs| == 1 then
          var out :- ConvertEach(f, items, |items|);
          Success(List(out))
        else
          var out :- ConvertPairwise(f, items, |fs|);
          Success(List(out))
  }

  /** The first n items converted in order by the single format of f, or
      the error of the first that fails. */
  function ConvertEach(f: Format, items: seq<Value>, n: nat): (r: Result<seq<Value>, InputError>)
    requires f.Formats? && |f.fs| == 1 && n <= |items|
    ensures r.Success? ==> |r.value| == n
    decreases f, 1, n
  {
    if n == 0 then Success([])
    else
      var front :- ConvertEach(f, items, n - 1);
      var x :- ConvertInput(f.fs[0], items[n - 1]);
      Success(front + [x])
  }

  /** The first k formats of f applied to the items at the same positions,
      or the error of the first position that fails or is missing. */
  function ConvertPairwise(f: Format, items: seq<Value>, k: nat): (r: Result<seq<Value>, InputError>)
    requires f.Formats? && k <= |f.fs|
    ensures r.Success? ==> |r.value| == k
    decreases f, 1, k
  {
    if k == 0 then Success([])
    else
      var front :- ConvertPairwise(f, items, k - 1);
      if k - 1 >= |items| then Failure(IndexOutOfRange(k - 1))
      else
        var x :- ConvertInput(f.fs[k - 1], items[k - 1]);
        Success(front + [x])
  }

  /** With one format the result converts every item by it: it succeeds
      exactly when every item converts, and then element by element. */
  lemma {:induction false} ConvertEachElements(f: Format, items: seq<Value>, n: nat)
    requires f.Formats? && |f.fs| == 1 && n <= |items|
    ensures ConvertEach(f, items, n).Success? <==>
      forall i :: 0 <= i < n ==> ConvertInput(f.fs[0], items[i]).Success?
    ensures ConvertEach(f, items, n).Success? ==>
      forall i :: 0 <= i < n ==> ConvertEach(f, items, n).value[i] == ConvertInput(f.fs[0], items[i]).value
  {
    if n > 0 {
      ConvertEachElements(f, items, n - 1);
    }
  }

  /** With k formats the result has k elements, the i-th format applied to
      the i-th item; it succeeds exactly when the input has at least k items
      and each of them converts. */
  lemma {:induction false} ConvertPairwiseElements(f: Format, items: seq<Value>, k: nat)
    requires f.Formats? && k <= |f.fs|
    ensures ConvertPairwise(f, items, k).Success? <==>
      k <= |items| && forall i :: 0 <= i < k ==> ConvertInput(f.fs[i], items[i]).Success?
    ensures ConvertPairwise(f, items, k).Success? ==>
      forall i :: 0 <= i < k ==> ConvertPairwise(f, items, k).value[i] == ConvertInput(f.fs[i], items[i]).value
  {
    if k > 0 {
      ConvertPairwiseElements(f, items, k - 1);
    }
  }

  /** Once a prefix of the items fails to convert, every longer prefix fails
      with the same error. */
  lemma {:induction false} ConvertEachFailureStays(f: Format, items: seq<Value>, i: nat, n: nat)
    requires f.Formats? && |f.fs| == 1 && i <= n <= |items|
    requires ConvertEach(f, items, i).Failure?
    ensures ConvertEach(f, items, n) == ConvertEach(f, items, i)
    decreases n - i
  {
    if i < n {
      ConvertEachFailureStays(f, items, i, n - 1);
    }
  }

  lemma {:induction false} ConvertPairwiseFailureStays(f: Format, items: seq<Value>, i: nat, k: nat)
    requires f.Formats? && i <= k <= |f.fs|
    requires ConvertPairwise(f, items, i).Failure?
    ensures ConvertPairwise(f, items, k) == ConvertPairwise(f, items, i)
    decreases k - i
  {
    if i < k {
      ConvertPairwiseFailureStays(f, items, i, k - 1);
    }
  }

  /** With one format the output has one element per input element; with n
      formats it has n elements, however long the input. */
  lemma ConvertInputLength(f: Format, v: Value)
    requires f.Formats? && ConvertInput(f, v).Success?
    ensures Items(v).Some?
    ensures |f.fs| == 1 ==> |ConvertInput(f, v).value.items| == |Items(v).value|
    ensures |f.fs| > 1 ==> |ConvertInput(f, v).value.items| == |f.fs| <= |Items(v).value|
  {
    if |f.fs| > 1 {
      ConvertPairwiseElements(f, Items(v).value, |f.fs|);
    }
  }

  /** convert_input. */
  method Convert(f: Format, v: Value) returns (r: Result<Value, InputError>)
    ensures r == ConvertInput(f, v)
    decreases f, 2, 0
  {
    if f.Conv? {
      return Apply(f.c, v);
    }
    if |f.fs| == 0 {
      return Failure(EmptyFormat);
    }
    var its := Items(v);
    if its.None? {
      return Failure(NotASequence(v));
    }
    var value;
    if |f.fs| == 1 {
      value :- ConvertAll(f, its.value);
    } else {
      value :- ConvertPairs(f, its.value);
    }
    return Success(List(value));
  }

  /** The loop of convert_input for a one-element format: append the
      conversion of each item in turn. */
  method ConvertAll(f: Format, items: seq<Value>) returns (r: Result<seq<Value>, InputError>)
    requires f.Formats? && |f.fs| == 1
    ensures r == ConvertEach(f, items, |items|)
    decreases f, 1, 0
  {
    var value: seq<Value> := [];
    var i := 0;
    while i < |items|
      invariant 0 <= i <= |items|
      invariant ConvertEach(f, items, i) == Success(value)
    {
      var x := Convert(f.fs[0], items[i]);
      if x.Failure? {
        ConvertEachFailureStays(f, items, i + 1, |items|);
        return Failure(x.error);
      }
      value := value + [x.value];
      i := i + 1;
    }
    return Success(value);
  }

  /** The loop of convert_input for a longer format: append the conversion
      of the i-th item by the i-th format. */
  method ConvertPairs(f: Format, items: seq<Value>) returns (r: Result<seq<Value>, InputError>)
    requires f.Formats? && |f.fs| > 1
    ensures r == ConvertPairwise(f, items, |f.fs|)
    decreases f, 1, 0
  {
    var n := |f.fs|;
    var value: seq<Value> := [];
    var i := 0;
    while i < n
      invariant 0 <= i <= n
      invariant ConvertPairwise(f, items, i) == Success(value)
    {
      if i >= |items| {
        ConvertPairwiseFailureStays(f, items, i + 1, n);
        return Failure(IndexOutOfRange(i));
      }
      var x := Convert(f.fs[i], items[i]);
      if x.Failure? {
        ConvertPairwiseFailureStays(f, items, i + 1, n);
        return Failure(x.error);
      }
      value := value + [x.value];
      i := i + 1;
    }
    return Success(value);
  }

  // --------------------------------------------------------------- keywords

  /** The default a keyword is declared with: Type.Optional, None, or a
      value that must convert. */
  datatype Default = Optional | NoDefault | Given(v: Value)

  /** A keyword: its name, its key type, its default and its description. */
  datatype Key = Key(name: string, typ: Converter, deflt: Default, desc: string)

  /** Key.__init__: a given default that the key type refuses raises the key
      type's own error; otherwise the keyword is made. */
  function NewKey(name: string, typ: Converter, deflt: Default, desc: string): (r: Result<Key, InputError>)
    ensures r.Success? <==> !deflt.Given? || Apply(typ, deflt.v).Success?
    ensures r.Success? ==> r.value == Key(name, typ, deflt, desc)
    ensures r.Failure? ==> r.error == Apply(typ, deflt.v).error
  {
    if deflt.Given? then
      match Apply(typ, deflt.v)
      case Success(_) => Success(Key(name, typ, deflt, desc))
      case Failure(e) => Failure(e)
    else Success(Key(name, typ, deflt, desc))
  }

  /** Key.__call__: the converted input, or an error naming the keyword and
      the input, whatever the key type raised. */
  function KeyCall(k: Key, input: Value): (r: Result<Value, InputError>)
    ensures r.Success? <==> Apply(k.typ, input).Success?
    ensures r.Success? ==> r.value == Apply(k.typ, input).value
    ensures r.Failure? ==> r.error == KeywordError(k.name, input)
  {
    match Apply(k.typ, input)
    case Success(x) => Success(x)
    case Failure(_) => Failure(KeywordError(k.name, input))
  }

  /** A keyword's given default converts when the keyword is called on it. */
  lemma KeyDefaultConverts(name: string, typ: Converter, deflt: Default, desc: string)
    requires NewKey(name, typ, deflt, desc).Success? && deflt.Given?
    ensures KeyCall(NewKey(name, typ, deflt, desc).value, deflt.v).Success?
  {
  }

  // ------------------------------------------------------ the input dictionary

  /** The global INP_DICT: keyword name to value. */
  class InputDict {
    var entries: map<string, Value>

    constructor()
      ensures entries == map[]
    {
      entries := map[];
    }

    /** reset_inputs: clear the dictionary in place. */
    method Reset()
      modifies this
      ensures entries == map[]
    {
      entries := map[];
    }
  }
}

=== FILE: loaded.dfy ===
/** What load_file guarantees about the molecule it builds: each table entry
    is its row read and converted exactly once, the line table refers only to
    existing levels, and the derived line quantities follow from the levels. */
module MoleculeFacts {
  import opened Wrappers
  import opened Text
  import opened Physics
  import opened Molecules

  // ------------------------------------------------------- row by row

  /** A level row that is read has at least four columns: its energy is the
      second column [cm^-1] in joules, its weight the third, its label the
      fourth. */
  lemma LevelRowFields(line: string, at: nat, v: Level)
    requires ParseLevelRow(line, at) == Success(v)
    ensures |Split(line)| >= 4
    ensures ParseReal(Split(line)[1]).Some? && v.energy == ParseReal(Split(line)[1]).value * WavenumberEnergy
    ensures ParseReal(Split(line)[2]) == Some(v.weight)
    ensures v.state == Split(line)[3]
  {
  }

  /** A level row with fewer than four columns is refused. */
  lemma ShortLevelRowRefused(line: string, at: nat)
    requires |Split(line)| < 4
    ensures ParseLevelRow(line, at) == Failure(LevelColumns(at))
  {
  }

  /** A line row whose column count is not six is refused. */
  lemma LineRowArityRefused(line: string, at: nat, levels: seq<Level>)
    requires |Split(line)| != 6
    ensures ParseLineRow(line, at, levels) == Failure(LineColumns(at))
  {
  }

  /** The quantities a line carries, given the levels it joins. */
  predicate LineConsistent(l: RadLine, levels: seq<Level>)
    requires PyValid(l.up, |levels|) && PyValid(l.lo, |levels|)
  {
    var gu := PyAt(levels, l.up).weight;
    var gl := PyAt(levels, l.lo).weight;
    && l.freq == (PyAt(levels, l.up).energy - PyAt(levels, l.lo).energy) / H
    && l.freq != 0.0 && gl != 0.0
    && l.bul == l.aul * C * C / (2.0 * H * (l.freq * l.freq * l.freq))
    && l.blu == (gu / gl) * l.bul
  }

  /** A line built between two levels carries the quantities derived from
      them. */
  lemma LineBetweenConsistent(levels: seq<Level>, up: int, lo: int, aul: real, at: nat, l: RadLine)
    requires PyValid(up, |levels|) && PyValid(lo, |levels|)
    requires LineBetween(levels, up, lo, aul, at) == Success(l)
    ensures l.up == up && l.lo == lo && l.aul == aul
    ensures LineConsistent(l, levels)
  {
  }

  /** A line row that is read has six columns; its level numbers are the
      file's minus one and name existing levels; A is the fourth column; the
      frequency comes from the level energies, never from the file; B_ul and
      B_lu are derived from A. */
  lemma LineRowFields(line: string, at: nat, levels: seq<Level>, l: RadLine)
    requires ParseLineRow(line, at, levels) == Success(l)
    ensures |Split(line)| == 6
    ensures ParseInt(Split(line)[1]) == Some(l.up + 1) && ParseInt(Split(line)[2]) == Some(l.lo + 1)
    ensures ParseReal(Split(line)[3]) == Some(l.aul)
    ensures PyValid(l.up, |levels|) && PyValid(l.lo, |levels|)
    ensures LineConsistent(l, levels)
  {
    var cols := Split(line);
    var up := AsInt(cols[1], at).value - 1;
    var lo := AsInt(cols[2], at).value - 1;
    LineBetweenConsistent(levels, up, lo, AsReal(cols[3], at).value, at, l);
  }

  /** The rate columns of a row, read and converted: one rate per column, each
      the column's value in m^3 s^-1. */
  lemma RateColumns(toks: seq<string>, at: nat, kul: seq<real>)
    requires AsReals(toks, at).Success? && kul == ScaleAll(AsReals(toks, at).value, CubicCm)
    ensures |kul| == |toks|
    ensures forall i :: 0 <= i < |toks| ==> ParseReal(toks[i]).Some? && kul[i] == ParseReal(toks[i]).value * CubicCm
  {
    AsRealsElements(toks, at);
  }

  /** A collisional-rate row that is read has at least three columns and
      keeps the file's level numbers minus one. */
  lemma TransRowLevels(line: string, at: nat, t: CollTrans)
    requires ParseTransRow(line, at) == Success(t)
    ensures |Split(line)| >= 3
    ensures ParseInt(Split(line)[1]) == Some(t.up + 1) && ParseInt(Split(line)[2]) == Some(t.lo + 1)
  {
  }

  /** ... and every rate column from the fourth on, in m^3 s^-1. */
  lemma TransRowRates(line: string, at: nat, t: CollTrans)
    requires ParseTransRow(line, at) == Success(t)
    ensures |Split(line)| >= 3 && |t.kul| == |Split(line)| - 3
    ensures forall i :: 0 <= i < |t.kul| ==>
      ParseReal(Split(line)[3 + i]).Some? && t.kul[i] == ParseReal(Split(line)[3 + i]).value * CubicCm
  {
    var cols := Split(line);
    RateColumns(cols[3..], at, t.kul);
    forall i | 0 <= i < |t.kul|
      ensures ParseReal(cols[3 + i]).Some? && t.kul[i] == ParseReal(cols[3 + i]).value * CubicCm
    {
      assert cols[3..][i] == cols[3 + i];
    }
  }

  // ------------------------------------------------------- table by table

  /** Every row of a table that is read satisfies P when every row the
      parser accepts does. */
  lemma {:induction false} RowsAll<T>(text: seq<string>, start: nat, k: nat, parse: (string, nat) -> Result<T, LoadError>,
                                     P: T -> bool)
    requires forall line, at :: parse(line, at).Success? ==> P(parse(line, at).value)
    requires Rows(text, start, k, parse).Success?
    ensures |Rows(text, start, k, parse).value| == k
    ensures forall x :: x in Rows(text, start, k, parse).value ==> P(x)
  {
    if k > 0 {
      RowsAll(text, start, k - 1, parse, P);
    }
  }

  /** Every block of a successful read satisfies P when every successful
      single read does. */
  lemma {:induction false} BlocksAll<T>(text: seq<string>, p: nat, k: nat, read: (seq<string>, nat) -> Result<(T, nat), LoadError>,
                                       P: T -> bool)
    requires forall q: nat :: read(text, q).Success? ==> P(read(text, q).value.0)
    requires Blocks(text, p, k, read).Success?
    ensures |Blocks(text, p, k, read).value.0| == k
    ensures forall x :: x in Blocks(text, p, k, read).value.0 ==> P(x)
  {
    if k > 0 {
      BlocksAll(text, p, k - 1, read, P);
    }
  }

  /** A partner that is read has exactly as many transitions as its count
      says (none for a count below one). */
  lemma PartnerTransCount(text: seq<string>, q: nat)
    requires ParsePartner(text, q).Success?
    ensures |ParsePartner(text, q).value.0.trans| == Count(ParsePartner(text, q).value.0.ntrans)
  {
    var h := ParsePartnerHeader(text, q).value;
    RowsAllOrNothing(text, q + 9, Count(h.ntrans), ParseTransRow);
  }

  /** A loaded molecule is assembled from the three stages of the reading. */
  lemma LoadStages(name: string, path: string, text: seq<string>, m: Molecule)
    returns (lv: LevelPart, ln: LinePart, pt: (int, seq<Coll>))
    requires Load(name, path, text) == Success(m)
    ensures LoadLevels(text) == Success(lv)
    ensures LoadLines(text, LevelsEnd(lv.nlev), lv.levels) == Success(ln)
    ensures LoadPartners(text, LinesEnd(LevelsEnd(lv.nlev), ln.nline)) == Success(pt)
    ensures m == MakeMolecule(name, path, lv, ln, pt.0, pt.1)
  {
    lv := LoadLevels(text).value;
    ln := LoadLines(text, LevelsEnd(lv.nlev), lv.levels).value;
    pt := LoadPartners(text, LinesEnd(LevelsEnd(lv.nlev), ln.nline)).value;
  }

  /** The level table read is exactly the Count(nlev) level rows from line 7
      (element by element, see RowsAllOrNothing). */
  lemma LevelTable(text: seq<string>, lv: LevelPart)
    requires LoadLevels(text) == Success(lv)
    ensures Rows(text, 7, Count(lv.nlev), ParseLevelRow) == Success(lv.levels)
    ensures |lv.levels| == Count(lv.nlev)
  {
  }

  /** The line table read at cursor p is exactly the Count(nline) line rows
      after its header, read against the given levels, and is not empty. */
  lemma LineTable(text: seq<string>, p: nat, levels: seq<Level>, ln: LinePart)
    requires LoadLines(text, p, levels) == Success(ln)
    ensures Rows(text, p + 3, Count(ln.nline), LineParser(levels)) == Success(ln.lines)
    ensures |ln.lines| == Count(ln.nline) && ln.lines != []
  {
  }

  /** The partners read at cursor q are exactly the Count(ncol) blocks after
      the partner count. */
  lemma PartnerTable(text: seq<string>, q: nat, pt: (int, seq<Coll>))
    requires LoadPartners(text, q) == Success(pt)
    ensures Blocks(text, q + 2, Count(pt.0), ParsePartner).Success?
    ensures Blocks(text, q + 2, Count(pt.0), ParsePartner).value.0 == pt.1
    ensures |pt.1| == Count(pt.0)
  {
  }

  /** The invariant of a built Molecule: the counts match the tables, there
      is at least one line, every line joins two existing levels and carries
      the quantities derived from them, the mass is the weight in kg, and
      min_freq is the smallest line frequency. */
  predicate Wf(m: Molecule) {
    && |m.levels| == Count(m.nlev)
    && |m.lines| == Count(m.nline) && m.lines != []
    && (forall l :: l in m.lines ==> LineOk(l, m.levels))
    && m.mass == m.weight * AMU
    && m.minFreq in Freqs(m.lines)
    && (forall i :: 0 <= i < |m.lines| ==> m.minFreq <= m.lines[i].freq)
    && |m.col| == Count(m.ncol)
    && (forall c :: c in m.col ==> |c.trans| == Count(c.ntrans))
  }

  /** A stored line joins two existing levels and carries the quantities
      derived from them. */
  predicate LineOk(l: RadLine, levels: seq<Level>) {
    PyValid(l.up, |levels|) && PyValid(l.lo, |levels|) && LineConsistent(l, levels)
  }

  /** Every line the line parser accepts is consistent with the levels. */
  lemma LineParserSound(levels: seq<Level>)
    ensures forall line, at :: LineParser(levels)(line, at).Success? ==> LineOk(LineParser(levels)(line, at).value, levels)
  {
    forall line, at | LineParser(levels)(line, at).Success?
      ensures LineOk(LineParser(levels)(line, at).value, levels)
    {
      LineRowFields(line, at, levels, ParseLineRow(line, at, levels).value);
    }
  }

  /** Every line of a line table that is read is consistent with the levels. */
  lemma LinesOk(text: seq<string>, p: nat, levels: seq<Level>, ln: LinePart)
    requires LoadLines(text, p, levels) == Success(ln)
    ensures forall l :: l in ln.lines ==> LineOk(l, levels)
  {
    LineTable(text, p, levels, ln);
    LineParserSound(levels);
    RowsAll(text, p + 3, Count(ln.nline), LineParser(levels), (l: RadLine) => LineOk(l, levels));
  }

  /** Every partner read has as many transitions as its count says. */
  lemma PartnersOk(text: seq<string>, q: nat, pt: (int, seq<Coll>))
    requires LoadPartners(text, q) == Success(pt)
    ensures |pt.1| == Count(pt.0)
    ensures forall c :: c in pt.1 ==> |c.trans| == Count(c.ntrans)
  {
    PartnerTable(text, q, pt);
    forall r: nat | ParsePartner(text, r).Success?
      ensures |ParsePartner(text, r).value.0.trans| == Count(ParsePartner(text, r).value.0.ntrans)
    {
      PartnerTransCount(text, r);
    }
    BlocksAll(text, q + 2, Count(pt.0), ParsePartner, (c: Coll) => |c.trans| == Count(c.ntrans));
  }

  /** The molecule assembled from stages that satisfy the stage facts
      satisfies the invariant. */
  lemma MakeMoleculeWf(name: string, path: string, lv: LevelPart, ln: LinePart, ncol: int, col: seq<Coll>)
    requires |lv.levels| == Count(lv.nlev)
    requires |ln.lines| == Count(ln.nline) && ln.lines != []
    requires forall l :: l in ln.lines ==> LineOk(l, lv.levels)
    requires |col| == Count(ncol) && forall c :: c in col ==> |c.trans| == Count(c.ntrans)
    ensures Wf(MakeMolecule(name, path, lv, ln, ncol, col))
  {
  }

  /** Every molecule load_file builds satisfies the invariant, and carries
      the name and path it was loaded under. */
  lemma LoadedMoleculeWf(name: string, path: string, text: seq<string>, m: Molecule)
    requires Load(name, path, text) == Success(m)
    ensures Wf(m)
    ensures m.name == name && m.path == path
  {
    var lv, ln, pt := LoadStages(name, path, text, m);
    LevelTable(text, lv);
    LineTable(text, LevelsEnd(lv.nlev), lv.levels, ln);
    LinesOk(text, LevelsEnd(lv.nlev), lv.levels, ln);
    PartnersOk(text, LinesEnd(LevelsEnd(lv.nlev), ln.nline), pt);
    MakeMoleculeWf(name, path, lv, ln, pt.0, pt.1);
  }

  /** A table with a row that is refused is refused. */
  lemma RowsFailsAt<T>(text: seq<string>, start: nat, k: nat, parse: (string, nat) -> Result<T, LoadError>, i: nat)
    requires i < k && RowAt(text, start + i, parse).Failure?
    ensures Rows(text, start, k, parse).Failure?
  {
    RowsAllOrNothing(text, start, k, parse);
  }

  /** A level row with fewer than four columns within the announced level
      count makes the level stage fail. */
  lemma ShortLevelRowFails(text: seq<string>, nlev: int, i: nat)
    requires ParseInt(Strip(LineAt(text, 5))) == Some(nlev) && i < nlev
    requires |Split(LineAt(text, 7 + i))| < 4
    ensures LoadLevels(text).Failure?
  {
    ShortLevelRowRefused(LineAt(text, 7 + i), 7 + i);
    RowsFailsAt(text, 7, Count(nlev), ParseLevelRow, i);
  }

  /** ... and then no Molecule is built from the file. */
  lemma ShortLevelRowRejected(name: string, path: string, text: seq<string>, nlev: int, i: nat)
    requires ParseInt(Strip(LineAt(text, 5))) == Some(nlev) && i < nlev
    requires |Split(LineAt(text, 7 + i))| < 4
    ensures Load(name, path, text).Failure?
  {
    ShortLevelRowFails(text, nlev, i);
  }

  /** The line row p + 3 + i, of the wrong arity, is refused. */
  lemma LineRowArityRefusedAt(text: seq<string>, p: nat, levels: seq<Level>, i: nat)
    requires |Split(LineAt(text, p + 3 + i))| != 6
    ensures RowAt(text, p + 3 + i, LineParser(levels)).Failure?
  {
    LineRowArityRefused(LineAt(text, p + 3 + i), p + 3 + i, levels);
  }

  /** A refused row among the nline rows of the line table at p + 3 makes
      the table fail. */
  lemma LineTableFailsAt(text: seq<string>, p: nat, levels: seq<Level>, nline: int, i: nat)
    requires i < nline
    requires RowAt(text, p + 3 + i, LineParser(levels)).Failure?
    ensures Rows(text, p + 3, Count(nline), LineParser(levels)).Failure?
  {
    assert i < Count(nline);
    RowsFailsAt(text, p + 3, Count(nline), LineParser(levels), i);
  }

  /** A line row whose column count is not six, within the announced line
      count, makes the line table fail. */
  lemma LineRowArityFailsTable(text: seq<string>, p: nat, levels: seq<Level>, nline: int, i: nat)
    requires i < nline
    requires |Split(LineAt(text, p + 3 + i))| != 6
    ensures Rows(text, p + 3, Count(nline), LineParser(levels)).Failure?
  {
    LineRowArityRefusedAt(text, p, levels, i);
    LineTableFailsAt(text, p, levels, nline, i);
  }

  /** ... and with it the line stage. */
  lemma LineRowArityFails(text: seq<string>, p: nat, levels: seq<Level>, nline: int, i: nat)
    requires AsInt(Strip(LineAt(text, p + 1)), p + 1) == Success(nline) && i < nline
    requires |Split(LineAt(text, p + 3 + i))| != 6
    ensures LoadLines(text, p, levels).Failure?
  {
    LineRowArityFailsTable(text, p, levels, nline, i);
    LinesFailWithRows(text, p, levels, nline);
  }

  /** A failing line table makes the line stage fail. */
  lemma LinesFailWithRows(text: seq<string>, p: nat, levels: seq<Level>, nline: int)
    requires AsInt(Strip(LineAt(text, p + 1)), p + 1) == Success(nline)
    requires Rows(text, p + 3, Count(nline), LineParser(levels)).Failure?
    ensures LoadLines(text, p, levels).Failure?
  {
  }

  /** A failing line stage after a level stage that succeeded makes the whole
      load fail. */
  lemma LinesStageRejects(name: string, path: string, text: seq<string>, lv: LevelPart)
    requires LoadLevels(text) == Success(lv)
    requires LoadLines(text, LevelsEnd(lv.nlev), lv.levels).Failure?
    ensures Load(name, path, text).Failure?
  {
  }

  /** The level count the level stage reports is the one in the file. */
  lemma LevelCountRead(text: seq<string>, nlev: int)
    requires AsInt(Strip(LineAt(text, 5)), 5) == Success(nlev)
    ensures LoadLevels(text).Success? ==> LoadLevels(text).value.nlev == nlev
  {
  }

  /** A failing level stage makes the whole load fail. */
  lemma LevelsStageRejects(name: string, path: string, text: seq<string>)
    requires LoadLevels(text).Failure?
    ensures Load(name, path, text).Failure?
  {
  }

  /** A line row of the wrong arity after a level stage that succeeded makes
      the whole load fail. */
  lemma LineRowArityAfterLevels(name: string, path: string, text: seq<string>, lv: LevelPart, nlev: int, nline: int, i: nat)
    requires LoadLevels(text) == Success(lv) && lv.nlev == nlev
    requires AsInt(Strip(LineAt(text, LevelsEnd(nlev) + 1)), LevelsEnd(nlev) + 1) == Success(nline) && i < nline
    requires |Split(LineAt(text, LevelsEnd(nlev) + 3 + i))| != 6
    ensures Load(name, path, text).Failure?
  {
    LineRowArityFails(text, LevelsEnd(nlev), lv.levels, nline, i);
    LinesStageRejects(name, path, text, lv);
  }

  /** ... and then no Molecule is built from the file: the line table starts
      three lines after the level table. */
  lemma LineRowArityRejected(name: string, path: string, text: seq<string>, nlev: int, nline: int, i: nat)
    requires AsInt(Strip(LineAt(text, 5)), 5) == Success(nlev)
    requires AsInt(Strip(LineAt(text, LevelsEnd(nlev) + 1)), LevelsEnd(nlev) + 1) == Success(nline) && i < nline
    requires |Split(LineAt(text, LevelsEnd(nlev) + 3 + i))| != 6
    ensures Load(name, path, text).Failure?
  {
    LevelCountRead(text, nlev);
    if LoadLevels(text).Failure? {
      LevelsStageRejects(name, path, text);
    } else {
      LineRowArityAfterLevels(name, path, text, LoadLevels(text).value, nlev, nline, i);
    }
  }
}

=== FILE: molecule.dfy ===
/** The molecular-data file reader and model builder: the constructor of class
    Molecule, its load_file method, and the collision-partner reader Coll.
    The data file is a sequence of lines read through a cursor; reading past
    the end yields the empty line, as Python's readline() does. */
module Molecules {
  import opened Wrappers
  import opened Text
  import opened Physics

  /** One energy level: energy [J], statistical weight, quantum-state label. */
  datatype Level = Level(energy: real, weight: real, state: string)

  /** One radiative transition. `up` and `lo` are stored as the file's level
      numbers minus one; they are used as Python list indices, so -1 (file
      value 0) names the last level. `freq` [Hz] is recomputed from the level
      energies; `aul` [s^-1] is read; `bul` and `blu` are derived. */
  datatype RadLine = RadLine(up: int, lo: int, aul: real, bul: real, blu: real, freq: real)

  /** One collisional transition: its level pair (file values minus one) and
      its downward rate coefficients [m^3 s^-1], one per file column. */
  datatype CollTrans = CollTrans(up: int, lo: int, kul: seq<real>)

  /** A collision partner, as read by class Coll. `ntrans` and `ntemp` are
      the counts written in the file; `temp` holds the temperatures [K]
      actually listed. */
  datatype Coll = Coll(
    id: int, name: string, ref: string,
    ntrans: int, ntemp: int,
    temp: seq<real>, trans: seq<CollTrans>)

  /** The data a Molecule object holds once load_file has run. */
  datatype Molecule = Molecule(
    name: string, path: string,
    chemname: string, weight: real, mass: real,
    nlev: int, qstate: string, levels: seq<Level>,
    nline: int, lines: seq<RadLine>, minFreq: real,
    ncol: int, col: seq<Coll>)

  /** The exceptions construction can raise; `line` is the 0-based number of
      the file line being handled when it is raised. */
  datatype LoadError =
    | UnknownMolecule(name: string)  // name not in the molecule registry
    | CannotOpen(path: string)       // open() fails
    | ValueError(line: nat)          // int() or float() rejects a field
    | IndexError(line: nat)          // a missing column, level, species or line
    | ZeroDivision(line: nat)        // a zero frequency or lower-level weight
    | LevelColumns(line: nat)        // a level row with fewer than 4 columns
    | LineColumns(line: nat)         // a line row whose column count is not 6

  /** The collision-partner species, by file id 1..6. */
  const Species: seq<string> := ["H2", "p-H2", "o-H2", "e", "H", "He"]

  /** The energy [J] of one wavenumber [cm^-1], (1 / cm) h c, written out
      (see WavenumberEnergyValue). */
  const WavenumberEnergy: real := 1.98644544043741208e-23

  /** cm^3 in m^3, the factor applied to every rate coefficient. */
  const CubicCm: real := 1.0e-6

  lemma WavenumberEnergyValue()
    ensures WavenumberEnergy == (1.0 / CM) * H * C
    ensures CubicCm == CM * CM * CM
  {
  }

  /** The number of iterations of Python's `range(n)`. */
  function Count(n: int): nat {
    if n > 0 then n else 0
  }

  /** `i` is a valid Python index into a list of length n (negative indices
      count from the end). */
  predicate PyValid(i: int, n: nat) {
    -(n as int) <= i < n
  }

  /** Python's `s[i]` */
  function PyAt<T>(s: seq<T>, i: int): T
    requires PyValid(i, |s|)
  {
    if i >= 0 then s[i] else s[|s| + i]
  }

  /** The line readline() returns at cursor position pos. */
  function LineAt(text: seq<string>, pos: nat): string {
    if pos < |text| then text[pos] else ""
  }

  function AsInt(s: string, at: nat): Result<int, LoadError> {
    match ParseInt(s)
    case Some(n) => Success(n)
    case None => Failure(ValueError(at))
  }

  function AsReal(s: string, at: nat): Result<real, LoadError> {
    match ParseReal(s)
    case Some(x) => Success(x)
    case None => Failure(ValueError(at))
  }

  /** The first n tokens converted in order by conv, or ValueError(at) at
      the first one that does not convert. */
  function ConvertUpTo<T>(toks: seq<string>, n: nat, at: nat, conv: string -> Option<T>): (r: Result<seq<T>, LoadError>)
    requires n <= |toks|
    ensures r.Success? ==> |r.value| == n
    ensures r.Failure? ==> r.error == ValueError(at)
  {
    if n == 0 then Success([])
    else
      var prev :- ConvertUpTo(toks, n - 1, at, conv);
      match conv(toks[n - 1])
      case Some(x) => Success(prev + [x])
      case None => Failure(ValueError(at))
  }

  /** The first n tokens convert if and only if each of them does, and then
      element by element. */
  lemma {:induction false} ConvertUpToElements<T>(toks: seq<string>, n: nat, at: nat, conv: string -> Option<T>)
    requires n <= |toks|
    ensures ConvertUpTo(toks, n, at, conv).Success? <==> forall i :: 0 <= i < n ==> conv(toks[i]).Some?
    ensures ConvertUpTo(toks, n, at, conv).Success? ==>
      forall i :: 0 <= i < n ==> Some(ConvertUpTo(toks, n, at, conv).value[i]) == conv(toks[i])
  {
    if n > 0 {
      ConvertUpToElements(toks, n - 1, at, conv);
    }
  }

  /** `[float(t) for t in toks]`: all tokens convert, or the first one that
      does not raises (see AsRealsElements). */
  function AsReals(toks: seq<string>, at: nat): (r: Result<seq<real>, LoadError>)
    ensures r.Success? ==> |r.value| == |toks|
    ensures r.Failure? ==> r.error == ValueError(at)
  {
    ConvertUpTo(toks, |toks|, at, ParseReal)
  }

  /** The list is converted if and only if every token is a float literal,
      and then element by element. */
  lemma AsRealsElements(toks: seq<string>, at: nat)
    ensures AsReals(toks, at).Success? <==> forall i :: 0 <= i < |toks| ==> ParseReal(toks[i]).Some?
    ensures AsReals(toks, at).Success? ==>
      forall i :: 0 <= i < |toks| ==> Some(AsReals(toks, at).value[i]) == ParseReal(toks[i])
  {
    ConvertUpToElements(toks, |toks|, at, ParseReal);
  }

  /** Every element multiplied by k. */
  function ScaleAll(xs: seq<real>, k: real): (r: seq<real>)
    ensures |r| == |xs| && forall i :: 0 <= i < |xs| ==> r[i] == xs[i] * k
  {
    seq(|xs|, i requires 0 <= i < |xs| => xs[i] * k)
  }

  function Freqs(lines: seq<RadLine>): (r: seq<real>)
    ensures |r| == |lines| && forall i :: 0 <= i < |lines| ==> r[i] == lines[i].freq
  {
    seq(|lines|, i requires 0 <= i < |lines| => lines[i].freq)
  }

  /** `sorted(s)[0]`: the smallest element. */
  function Min(s: seq<real>): (m: real)
    requires s != []
    ensures m in s
    ensures forall i :: 0 <= i < |s| ==> m <= s[i]
  {
    if |s| == 1 then s[0]
    else
      var rest := Min(s[1..]);
      assert forall i :: 1 <= i < |s| ==> s[i] == s[1..][i - 1];
      if s[0] <= rest then s[0] else rest
  }

  // ---------------------------------------------------------------- rows

  /** The row parser applied to the line at position at. */
  function RowAt<T>(text: seq<string>, at: nat, parse: (string, nat) -> Result<T, LoadError>): Result<T, LoadError> {
    parse(LineAt(text, at), at)
  }

  /** A table of k rows starting at line `start`, read in order by `parse`;
      the first row that fails ends the reading with its error. */
  function Rows<T>(text: seq<string>, start: nat, k: nat, parse: (string, nat) -> Result<T, LoadError>): (r: Result<seq<T>, LoadError>)
    ensures r.Success? ==> |r.value| == k
  {
    if k == 0 then Success([])
    else
      var prev :- Rows(text, start, k - 1, parse);
      var row :- RowAt(text, start + k - 1, parse);
      Success(prev + [row])
  }

  /** A table is read if and only if each of its rows is, and then its i-th
      entry is the i-th row's. */
  lemma {:induction false} RowsAllOrNothing<T>(text: seq<string>, start: nat, k: nat, parse: (string, nat) -> Result<T, LoadError>)
    ensures Rows(text, start, k, parse).Success?
        <==> forall at :: start <= at < start + k ==> RowAt(text, at, parse).Success?
    ensures Rows(text, start, k, parse).Success? ==>
      var rows := Rows(text, start, k, parse).value;
      |rows| == k && forall i :: 0 <= i < k ==> Success(rows[i]) == RowAt(text, start + i, parse)
  {
    if k > 0 {
      RowsAllOrNothing(text, start, k - 1, parse);
    }
  }

  /** Once a row has failed, reading more rows does not change the outcome. */
  lemma {:induction false} RowsFailureStays<T>(text: seq<string>, start: nat, j: nat, k: nat, parse: (string, nat) -> Result<T, LoadError>)
    requires j <= k && Rows(text, start, j, parse).Failure?
    ensures Rows(text, start, k, parse) == Rows(text, start, j, parse)
    decreases k
  {
    if k > j {
      RowsFailureStays(text, start, j, k - 1, parse);
    }
  }

  // -------------------------------------------------------- level table

  /** A level row, from its columns: index, energy [cm^-1], weight, label;
      columns after the fourth are ignored. */
  function LevelFromColumns(cols: seq<string>, at: nat): Result<Level, LoadError> {
    if |cols| < 4 then Failure(LevelColumns(at))
    else
      var e :- AsReal(cols[1], at);
      var g :- AsReal(cols[2], at);
      Success(Level(e * WavenumberEnergy, g, cols[3]))
  }

  function ParseLevelRow(line: string, at: nat): Result<Level, LoadError> {
    LevelFromColumns(Split(line), at)
  }

  /** Only the first four columns of a level row matter. */
  lemma ExtraLevelColumnsIgnored(cols: seq<string>, at: nat)
    requires |cols| >= 4
    ensures LevelFromColumns(cols, at) == LevelFromColumns(cols[..4], at)
  {
    var short := cols[..4];
    assert short[1] == cols[1] && short[2] == cols[2] && short[3] == cols[3];
  }

  // --------------------------------------------------------- line table

  lemma CubeNonZero(x: real)
    requires x != 0.0
    ensures 2.0 * H * (x * x * x) != 0.0
  {
    assert x * x > 0.0;
    assert x * x * x != 0.0;
  }

  /** The radiative line from level up to level lo with Einstein A
      coefficient aul: the frequency is recomputed from the energies of the
      two levels, and the Einstein B coefficients derived from A. */
  function LineBetween(levels: seq<Level>, up: int, lo: int, aul: real, at: nat): Result<RadLine, LoadError>
    requires PyValid(up, |levels|) && PyValid(lo, |levels|)
  {
    var freq := (PyAt(levels, up).energy - PyAt(levels, lo).energy) / H;
    if freq == 0.0 then Failure(ZeroDivision(at))
    else
      CubeNonZero(freq);
      var bul := aul * C * C / (2.0 * H * (freq * freq * freq));
      var gu := PyAt(levels, up).weight;
      var gl := PyAt(levels, lo).weight;
      if gl == 0.0 then Failure(ZeroDivision(at))
      else Success(RadLine(up, lo, aul, bul, (gu / gl) * bul, freq))
  }

  /** A line row: index, upper, lower, A [s^-1] and two ignored columns. */
  function ParseLineRow(line: string, at: nat, levels: seq<Level>): Result<RadLine, LoadError> {
    var cols := Split(line);
    if |cols| != 6 then Failure(LineColumns(at))
    else
      var u :- AsInt(cols[1], at);
      var l :- AsInt(cols[2], at);
      var up := u - 1;
      var lo := l - 1;
      if !PyValid(up, |levels|) || !PyValid(lo, |levels|) then Failure(IndexError(at))
      else
        var aul :- AsReal(cols[3], at);
        LineBetween(levels, up, lo, aul, at)
  }

  function LineParser(levels: seq<Level>): (string, nat) -> Result<RadLine, LoadError> {
    (line: string, at: nat) => ParseLineRow(line, at, levels)
  }

  // ------------------------------------------------- collision partners

  /** `species[id - 1]`: ids 1..6 name H2, p-H2, o-H2, e, H, He; Python's
      negative indexing also lets ids -5..0 through (0 gives "He"); any other
      id raises. */
  function PartnerName(id: int): (r: Option<string>)
    ensures r.Some? <==> -5 <= id <= 6
    ensures 1 <= id <= 6 ==> r == Some(Species[id - 1])
    ensures id == 0 ==> r == Some("He")
  {
    if PyValid(id - 1, |Species|) then Some(PyAt(Species, id - 1)) else None
  }

  /** A collisional-rate row: index, upper, lower, then one rate [cm^3 s^-1]
      per remaining column, stored in m^3 s^-1. */
  function ParseTransRow(line: string, at: nat): Result<CollTrans, LoadError> {
    var cols := Split(line);
    if |cols| < 2 then Failure(IndexError(at))
    else
      var u :- AsInt(cols[1], at);
      if |cols| < 3 then Failure(IndexError(at))
      else
        var l :- AsInt(cols[2], at);
        var ks :- AsReals(cols[3..], at);
        Success(CollTrans(u - 1, l - 1, ScaleAll(ks, CubicCm)))
  }

  /** The partner's identification line: species id, then its reference
      text; the id must name a species. */
  function PartnerHead(line: string, at: nat): Result<(int, string, string), LoadError> {
    var cols := Split(line);
    if cols == [] then Failure(IndexError(at))
    else
      var id :- AsInt(cols[0], at);
      match PartnerName(id)
      case None => Failure(IndexError(at))
      case Some(name) => Success((id, name, Join(" ", cols[1..])))
  }

  /** The four value blocks that precede a partner's rate table: species
      id and reference, transition count, temperature count, temperatures. */
  datatype PartnerHeader = PartnerHeader(
    id: int, name: string, ref: string, ntrans: int, ntemp: int, temp: seq<real>)

  function ParsePartnerHeader(text: seq<string>, p: nat): Result<PartnerHeader, LoadError> {
    var head :- PartnerHead(LineAt(text, p + 1), p + 1);
    var ntrans :- AsInt(LineAt(text, p + 3), p + 3);
    var ntemp :- AsInt(LineAt(text, p + 5), p + 5);
    var temp :- AsReals(Split(LineAt(text, p + 7)), p + 7);
    Success(PartnerHeader(head.0, head.1, head.2, ntrans, ntemp, temp))
  }

  function MakeColl(h: PartnerHeader, trans: seq<CollTrans>, p: nat): (Coll, nat) {
    (Coll(h.id, h.name, h.ref, h.ntrans, h.ntemp, h.temp, trans), p + 9 + Count(h.ntrans))
  }

  /** Coll.__init__ at cursor p: the partner and the cursor after its table.
      Each value is the second line of a two-line block. */
  function ParsePartner(text: seq<string>, p: nat): Result<(Coll, nat), LoadError> {
    var h :- ParsePartnerHeader(text, p);
    var trans :- Rows(text, p + 9, Count(h.ntrans), ParseTransRow);
    Success(MakeColl(h, trans, p))
  }

  /** k variable-length blocks read one after the other from cursor p, each
      starting where the previous one ended, and the cursor after the last;
      the first block that fails ends the reading with its error. */
  function Blocks<T>(text: seq<string>, p: nat, k: nat, read: (seq<string>, nat) -> Result<(T, nat), LoadError>): (r: Result<(seq<T>, nat), LoadError>)
    ensures r.Success? ==> |r.value.0| == k
  {
    if k == 0 then Success(([], p))
    else
      var prev :- Blocks(text, p, k - 1, read);
      var next :- read(text, prev.1);
      Success((prev.0 + [next.0], next.1))
  }

  /** After i of k blocks, the next block either extends the list by itself
      and moves the cursor past it, or fails, and then all k blocks fail with
      its error. */
  lemma BlocksNext<T>(text: seq<string>, p: nat, i: nat, k: nat, read: (seq<string>, nat) -> Result<(T, nat), LoadError>,
                      xs: seq<T>, pos: nat)
    requires i < k && Blocks(text, p, i, read) == Success((xs, pos))
    ensures read(text, pos).Success? ==>
      Blocks(text, p, i + 1, read) == Success((xs + [read(text, pos).value.0], read(text, pos).value.1))
    ensures read(text, pos).Failure? ==> Blocks(text, p, k, read) == Failure(read(text, pos).error)
  {
    if read(text, pos).Failure? {
      BlocksFailureStays(text, p, i + 1, k, read);
    }
  }

  /** Once a block has failed, reading more blocks does not change the outcome. */
  lemma {:induction false} BlocksFailureStays<T>(text: seq<string>, p: nat, j: nat, k: nat, read: (seq<string>, nat) -> Result<(T, nat), LoadError>)
    requires j <= k && Blocks(text, p, j, read).Failure?
    ensures Blocks(text, p, k, read) == Blocks(text, p, j, read)
    decreases k
  {
    if k > j {
      BlocksFailureStays(text, p, j, k - 1, read);
    }
  }

  // ------------------------------------------------------- whole file

  /** The quantum-state label from the level-table header: the '+'-separated
      header fields from the fourth on, each stripped, joined by '+'. */
  function QState(header: string): string {
    var parts := SplitOn(header, '+');
    var hdrcols := seq(|parts|, i requires 0 <= i < |parts| => Strip(parts[i]));
    Join("+", if |hdrcols| > 3 then hdrcols[3..] else [])
  }

  /** What load_file has read when the level table is done. */
  datatype LevelPart = LevelPart(chemname: string, weight: real, nlev: int, qstate: string, levels: seq<Level>)

  /** What load_file has read when the line table is done. */
  datatype LinePart = LinePart(nline: int, lines: seq<RadLine>)

  /** Lines 0-1 name, 2-3 weight [amu], 4-5 level count, 6 the level-table
      header, then the level table. */
  function LoadLevels(text: seq<string>): Result<LevelPart, LoadError> {
    var chemname := Strip(LineAt(text, 1));
    var weight :- AsReal(Strip(LineAt(text, 3)), 3);
    var nlev :- AsInt(Strip(LineAt(text, 5)), 5);
    var levels :- Rows(text, 7, Count(nlev), ParseLevelRow);
    Success(LevelPart(chemname, weight, nlev, QState(LineAt(text, 6)), levels))
  }

  /** The cursor after the level table. */
  function LevelsEnd(nlev: int): nat {
    7 + Count(nlev)
  }

  /** At cursor p: two lines for the line count, a header, the line table,
      whose rows refer to the levels already read. A file without any line
      fails on `sorted(freqs)[0]`. */
  function LoadLines(text: seq<string>, p: nat, levels: seq<Level>): (r: Result<LinePart, LoadError>)
    ensures r.Success? ==> r.value.lines != []
  {
    var nline :- AsInt(Strip(LineAt(text, p + 1)), p + 1);
    var lines :- Rows(text, p + 3, Count(nline), LineParser(levels));
    if lines == [] then Failure(IndexError(p + 3 + Count(nline)))
    else Success(LinePart(nline, lines))
  }

  /** The cursor after the line table. */
  function LinesEnd(p: nat, nline: int): nat {
    p + 3 + Count(nline)
  }

  /** At cursor q: two lines for the partner count, then the partners, one
      block each; the count and the partners read. */
  function LoadPartners(text: seq<string>, q: nat): Result<(int, seq<Coll>), LoadError> {
    var ncol :- AsInt(Strip(LineAt(text, q + 1)), q + 1);
    var partners :- Blocks(text, q + 2, Count(ncol), ParsePartner);
    Success((ncol, partners.0))
  }

  /** The molecule assembled from what load_file read: the mass is the
      weight in kilograms, the smallest line frequency is kept. */
  function MakeMolecule(name: string, path: string, lv: LevelPart, ln: LinePart, ncol: int, col: seq<Coll>): Molecule
    requires ln.lines != []
  {
    Molecule(name, path, lv.chemname, lv.weight, lv.weight * AMU, lv.nlev, lv.qstate, lv.levels,
             ln.nline, ln.lines, Min(Freqs(ln.lines)), ncol, col)
  }

  /** load_file on the lines of a molecular data file: the level table, the
      line table, then two lines for the partner count and the partners. */
  function Load(name: string, path: string, text: seq<string>): Result<Molecule, LoadError> {
    var lv :- LoadLevels(text);
    var p := LevelsEnd(lv.nlev);
    var ln :- LoadLines(text, p, lv.levels);
    var q := LinesEnd(p, ln.nline);
    var pt :- LoadPartners(text, q);
    Success(MakeMolecule(name, path, lv, ln, pt.0, pt.1))
  }

  // ------------------------------------------------ imperative reader

  /** The row loop of load_file and Coll.__init__: `for i in range(n)` reads
      one line and appends its parsed row; a row that fails raises. */
  method ReadRows<T>(text: seq<string>, start: nat, n: int, parse: (string, nat) -> Result<T, LoadError>)
    returns (r: Result<seq<T>, LoadError>)
    ensures r == Rows(text, start, Count(n), parse)
  {
    var rows: seq<T> := [];
    var pos := start;
    var i := 0;
    while i < n
      invariant 0 <= i <= Count(n)
      invariant pos == start + i
      invariant Rows(text, start, i, parse) == Success(rows)
    {
      var row := parse(LineAt(text, pos), pos);
      if row.Failure? {
        RowsFailureStays(text, start, i + 1, Count(n), parse);
        return Failure(row.error);
      }
      rows := rows + [row.value];
      pos := pos + 1;
      i := i + 1;
    }
    return Success(rows);
  }

  /** Coll.__init__: reads one partner block at cursor p. */
  method ReadColl(text: seq<string>, p: nat) returns (r: Result<(Coll, nat), LoadError>)
    ensures r == ParsePartner(text, p)
  {
    var h :- ParsePartnerHeader(text, p);
    var trans :- ReadRows(text, p + 9, h.ntrans, ParseTransRow);
    return Success(MakeColl(h, trans, p));
  }

  /** The partner loop of load_file: `for i in range(n)` constructs one
      block at the cursor (a Coll, for the partner table) and moves the
      cursor past it; a block that fails raises. */
  method ReadBlocks<T>(text: seq<string>, start: nat, n: int, read: (seq<string>, nat) -> Result<(T, nat), LoadError>)
    returns (r: Result<(seq<T>, nat), LoadError>)
    ensures r == Blocks(text, start, Count(n), read)
  {
    var xs: seq<T> := [];
    var pos := start;
    var i := 0;
    while i < n
      invariant 0 <= i <= Count(n)
      invariant Blocks(text, start, i, read) == Success((xs, pos))
    {
      BlocksNext(text, start, i, Count(n), read, xs, pos);
      var b := read(text, pos);
      if b.Failure? {
        return Failure(b.error);
      }
      xs := xs + [b.value.0];
      pos := b.value.1;
      i := i + 1;
    }
    return Success((xs, pos));
  }

  /** The first part of load_file: header lines and the level loop. */
  method ReadLevels(text: seq<string>) returns (r: Result<LevelPart, LoadError>)
    ensures r == LoadLevels(text)
  {
    var chemname := Strip(LineAt(text, 1));
    var weight :- AsReal(Strip(LineAt(text, 3)), 3);
    var nlev :- AsInt(Strip(LineAt(text, 5)), 5);
    var levels :- ReadRows(text, 7, nlev, ParseLevelRow);
    return Success(LevelPart(chemname, weight, nlev, QState(LineAt(text, 6)), levels));
  }

  /** The second part of load_file: the line count and the line loop. */
  method ReadLines(text: seq<string>, p: nat, levels: seq<Level>) returns (r: Result<LinePart, LoadError>)
    ensures r == LoadLines(text, p, levels)
  {
    var nline := AsInt(Strip(LineAt(text, p + 1)), p + 1);
    if nline.Failure? {
      return Failure(nline.error);
    }
    var lines := ReadRows(text, p + 3, nline.value, LineParser(levels));
    if lines.Failure? {
      return Failure(lines.error);
    }
    if lines.value == [] {
      return Failure(IndexError(p + 3 + Count(nline.value)));
    }
    return Success(LinePart(nline.value, lines.value));
  }

  /** The last part of load_file: the partner count and the partner loop. */
  method ReadPartnerTable(text: seq<string>, q: nat) returns (r: Result<(int, seq<Coll>), LoadError>)
    ensures r == LoadPartners(text, q)
  {
    var ncol :- AsInt(Strip(LineAt(text, q + 1)), q + 1);
    var partners :- ReadBlocks(text, q + 2, ncol, ParsePartner);
    return Success((ncol, partners.0));
  }

  /** load_file: reads the file through a cursor, growing the level, line and
      partner lists; it builds exactly the molecule Load describes, or raises
      the same error. */
  method LoadFile(name: string, path: string, text: seq<string>) returns (r: Result<Molecule, LoadError>)
    ensures r == Load(name, path, text)
  {
    var lv :- ReadLevels(text);
    var pos := LevelsEnd(lv.nlev);
    var ln :- ReadLines(text, pos, lv.levels);
    pos := LinesEnd(pos, ln.nline);
    var pt :- ReadPartnerTable(text, pos);
    return Success(MakeMolecule(name, path, lv, ln, pt.0, pt.1));
  }

  /** Molecule(name): a name outside the registry is rejected; otherwise the
      file <dir>/<name>.dat is loaded. */
  method NewMolecule(name: string, molecList: seq<string>, molecDir: string, files: map<string, seq<string>>)
    returns (r: Result<Molecule, LoadError>)
    ensures name !in molecList ==> r == Failure(UnknownMolecule(name))
    ensures name in molecList ==>
      var path := molecDir + "/" + name + ".dat";
      r == if path in files then Load(name, path, files[path]) else Failure(CannotOpen(path))
  {
    if name !in molecList {
      return Failure(UnknownMolecule(name));
    }
    var path := molecDir + "/" + name + ".dat";
    if path !in files {
      return Failure(CannotOpen(path));
    }
    r := LoadFile(name, path, files[path]);
  }
}

=== FILE: physics.dfy ===
/** Physical constants, unit factors and the module-level helper functions of
    the physics module (thermal width, Doppler shift, Gaussian profile, the
    three-vector helpers). */
module Physics {

  // Physical constants (SI), class Const
  const PI: real := 3.141592653589793
  const C: real := 2.99792458e8       // speed of light [m s^-1]
  const KB: real := 1.3806503e-23     // Boltzmann constant [J K^-1]
  const H: real := 6.62606876e-34     // Planck constant [J s]

  const ME: real := 9.1093897e-31     // electron mass [kg]
  const MP: real := 1.6726231e-27     // proton mass [kg]

  // Unit factors, class Units
  const MINUTE: real := 60.0          // [s]
  const HOUR: real := 60.0 * MINUTE
  const DAY: real := 24.0 * HOUR
  const YEAR: real := 365.242199 * DAY
  const REARTH: real := 6.378e6       // [m]
  const RSUN: real := 6.96e8          // [m]
  const LSUN: real := 3.839e26        // [J s^-1]
  const AU: real := 1.49598e11        // [m]
  const PC: real := 3.08568025e16     // parsec [m]
  const CM: real := 1.0e-2            // centimetre [m]
  const AMU: real := 1.66053873e-27   // atomic mass unit [kg]
  const MSUN: real := 1.9891e30       // [kg]

  /** The facts about the exponential function the model uses: it is
      positive, turns sums into products, and is at most 1 for arguments
      that are not positive. */
  ghost predicate ExpLaws(f: real -> real) {
    && (forall x :: f(x) > 0.0)
    && (forall a, b {:trigger f(Add(a, b))} :: f(Add(a, b)) == f(a) * f(b))
    && (forall x :: x <= 0.0 ==> f(x) <= 1.0)
  }

  /** a + b, named so that the law about sums is used only where asked for. */
  function Add(a: real, b: real): real {
    a + b
  }

  /** Python's `math.exp`, known only through ExpLaws. */
  type ExpFn = f: real -> real | ExpLaws(f) witness (x: real) => 1.0

  /** Python's `math.sqrt` on its domain: the non-negative square root. */
  ghost predicate IsSqrt(sqrt: real -> real) {
    forall x :: 0.0 <= x ==> 0.0 <= sqrt(x) && sqrt(x) * sqrt(x) == x
  }

  lemma ExpAdd(exp: ExpFn, a: real, b: real)
    ensures exp(a + b) == exp(a) * exp(b)
  {
    assert exp(Add(a, b)) == exp(a) * exp(b);
  }

  lemma ExpZero(exp: ExpFn)
    ensures exp(0.0) == 1.0
  {
    ExpAdd(exp, 0.0, 0.0);
    assert exp(0.0) * 1.0 == exp(0.0) * exp(0.0);
  }

  /** exp(b) / exp(a) == exp(b - a) */
  lemma ExpQuotient(exp: ExpFn, a: real, b: real)
    ensures exp(b) / exp(a) == exp(b - a)
  {
    ExpAdd(exp, b - a, a);
    assert b - a + a == b;
  }

  /** exp is non-decreasing. */
  lemma ExpMonotone(exp: ExpFn, a: real, b: real)
    requires a <= b
    ensures exp(a) <= exp(b)
  {
    ExpAdd(exp, b, a - b);
    assert b + (a - b) == a;
    assert exp(a) == exp(b) * exp(a - b);
    assert exp(a - b) <= 1.0;
    assert exp(b) * exp(a - b) <= exp(b) * 1.0;
  }

  lemma QuotBounds(a: real, b: real)
    requires 0.0 <= a <= b && b > 0.0
    ensures 0.0 <= a / b <= 1.0
  {
  }

  lemma QuotPos(a: real, b: real)
    requires a > 0.0 && b > 0.0
    ensures a / b > 0.0
  {
  }

  lemma ZeroProduct(a: real, b: real)
    requires a * b == 0.0
    ensures a == 0.0 || b == 0.0
  {
  }

  /** A non-negative number has exactly one non-negative square root. */
  lemma SqrtUnique(sqrt: real -> real, x: real, y: real)
    requires IsSqrt(sqrt)
    requires 0.0 <= y && y * y == x
    ensures sqrt(x) == y
  {
    var s := sqrt(x);
    assert 0.0 <= s && s * s == x;
    assert (s - y) * (s + y) == 0.0;
    ZeroProduct(s - y, s + y);
  }

  /** thermal_vwidth: the thermal velocity width sqrt(2 k T / m); its square
      is 2 k T / m, and it is positive for a positive temperature and mass. */
  function ThermalVWidth(sqrt: real -> real, tk: real, m: real): (r: real)
    requires IsSqrt(sqrt)
    requires m != 0.0 && 2.0 * KB * tk / m >= 0.0
    ensures r >= 0.0 && r * r == 2.0 * KB * tk / m
    ensures tk > 0.0 && m > 0.0 ==> r > 0.0
  {
    var q := 2.0 * KB * tk / m;
    assert tk > 0.0 && m > 0.0 ==> sqrt(q) != 0.0 by {
      if tk > 0.0 && m > 0.0 {
        QuotPos(2.0 * KB * tk, m);
      }
    }
    sqrt(q)
  }

  /** Doppler_vel2frq: the frequency f0 * sqrt((c - v) / (c + v)) observed
      from a source receding at velocity v. The source divides by c + v and
      takes a square root of the quotient, so it is defined exactly for
      -c < v <= c. */
  function DopplerVel2Frq(sqrt: real -> real, f0: real, v: real): real
    requires IsSqrt(sqrt)
    requires -C < v <= C
  {
    DopplerQuotient(v);
    f0 * sqrt((C - v) / (C + v))
  }

  lemma DopplerQuotient(v: real)
    requires -C < v <= C
    ensures (C - v) / (C + v) >= 0.0
    ensures 0.0 <= v ==> (C - v) / (C + v) <= 1.0
    ensures v < C ==> (C - v) / (C + v) > 0.0
  {
    if v < C {
      QuotPos(C - v, C + v);
    }
    if 0.0 <= v {
      QuotBounds(C - v, C + v);
    }
  }

  /** Doppler_frq2vel: the velocity c (1 - (f/f0)^2) / (1 + (f/f0)^2) that
      shifts f0 to f. */
  function DopplerFrq2Vel(f0: real, f: real): real
    requires f0 != 0.0
  {
    var x := f / f0;
    C * (1.0 - x * x) / (1.0 + x * x)
  }

  /** A receding source (0 <= v < c) is seen at a frequency no higher than
      its rest frequency, and never at zero. */
  lemma DopplerRedshift(sqrt: real -> real, f0: real, v: real)
    requires IsSqrt(sqrt)
    requires f0 > 0.0 && 0.0 <= v < C
    ensures 0.0 < DopplerVel2Frq(sqrt, f0, v) <= f0
  {
    var q := (C - v) / (C + v);
    DopplerQuotient(v);
    var s := sqrt(q);
    assert s * s == q;
    assert s > 0.0;
    assert s <= 1.0;
    assert f0 * s <= f0 * 1.0;
    assert 0.0 < f0 * s;
  }

  /** The Doppler conversions are inverse to each other: shifting by a
      velocity |v| < c and reading the velocity back gives v. */
  lemma DopplerVelocityRoundTrip(sqrt: real -> real, f0: real, v: real)
    requires IsSqrt(sqrt)
    requires f0 != 0.0 && -C < v < C
    ensures DopplerFrq2Vel(f0, DopplerVel2Frq(sqrt, f0, v)) == v
  {
    var q := (C - v) / (C + v);
    DopplerQuotient(v);
    var s := sqrt(q);
    var f := f0 * s;
    assert f / f0 == s;
    assert s * s == q;
    var d := C + v;
    assert q * d == C - v;
    assert (1.0 - q) * d == 2.0 * v;
    assert (1.0 + q) * d == 2.0 * C;
    assert 1.0 + q != 0.0;
    assert C * (1.0 - q) == v * (1.0 + q) by {
      assert C * (1.0 - q) * d == v * (1.0 + q) * d;
    }
  }

  /** ... and reading a velocity from a frequency of the same sign as f0 and
      shifting by it gives that frequency back. */
  lemma DopplerFrequencyRoundTrip(sqrt: real -> real, f0: real, f: real)
    requires IsSqrt(sqrt)
    requires f0 > 0.0 && f >= 0.0
    ensures -C < DopplerFrq2Vel(f0, f) <= C
    ensures DopplerVel2Frq(sqrt, f0, DopplerFrq2Vel(f0, f)) == f
  {
    var x := f / f0;
    assert x >= 0.0;
    var v := DopplerFrq2Vel(f0, f);
    var d := 1.0 + x * x;
    assert d > 0.0;
    assert v * d == C * (1.0 - x * x);
    assert (C + v) * d == 2.0 * C;
    assert (C - v) * d == 2.0 * C * (x * x);
    assert C + v > 0.0 by {
      QuotPos(2.0 * C, d);
      assert C + v == 2.0 * C / d;
    }
    assert C - v >= 0.0;
    assert (C - v) == (x * x) * (C + v) by {
      assert (C - v) * d == (x * x) * (C + v) * d;
    }
    assert (C - v) / (C + v) == x * x;
    SqrtUnique(sqrt, x * x, x);
    assert f0 * x == f;
  }

  /** gaussian_vprofile: the normalised Gaussian line profile
      exp(-(v/dv)^2) / (dv sqrt(pi)); it is positive, peaks at v = 0 and
      never exceeds its peak 1 / (dv sqrt(pi)). */
  function GaussianVProfile(exp: ExpFn, sqrt: real -> real, vel: real, dvel: real): (r: real)
    requires IsSqrt(sqrt) && dvel != 0.0
    ensures dvel > 0.0 ==> 0.0 < r <= 1.0 / (dvel * sqrt(PI))
    ensures vel == 0.0 ==> r == 1.0 / (dvel * sqrt(PI))
  {
    var spi := sqrt(PI);
    assert spi > 0.0;
    ExpZero(exp);
    var x := vel / dvel;
    var g := exp(-(x * x));
    assert g <= 1.0;
    assert dvel > 0.0 ==> (1.0 / (dvel * spi)) * g <= 1.0 / (dvel * spi);
    (1.0 / (dvel * spi)) * g
  }

  /** Vec3_DotProd: the component-wise product of two three-vectors (the
      source returns the list of products, not their sum). */
  function Vec3DotProd(a: seq<real>, b: seq<real>): (r: seq<real>)
    requires |a| >= 3 && |b| >= 3
    ensures |r| == 3 && forall i :: 0 <= i < 3 ==> r[i] == a[i] * b[i]
  {
    [a[0] * b[0], a[1] * b[1], a[2] * b[2]]
  }

  /** Vec3_Scale: each of the first three components multiplied by k. */
  function Vec3Scale(a: seq<real>, k: real): (r: seq<real>)
    requires |a| >= 3
    ensures |r| == 3 && forall i :: 0 <= i < 3 ==> r[i] == a[i] * k
  {
    [a[0] * k, a[1] * k, a[2] * k]
  }

  /** Scaling either factor scales the component-wise product. */
  lemma Vec3ScaleDotProd(a: seq<real>, b: seq<real>, k: real)
    requires |a| >= 3 && |b| >= 3
    ensures Vec3DotProd(Vec3Scale(a, k), b) == Vec3Scale(Vec3DotProd(a, b), k)
    ensures Vec3DotProd(a, b) == Vec3DotProd(b, a)
  {
    var l := Vec3DotProd(Vec3Scale(a, k), b);
    var r := Vec3Scale(Vec3DotProd(a, b), k);
    forall i | 0 <= i < 3 ensures l[i] == r[i] {
      assert a[i] * k * b[i] == a[i] * b[i] * k;
    }
  }
}

=== FILE: queries.dfy ===
/** The query methods of a built Molecule and of its collision partners:
    partition function, Boltzmann level populations and ratios, collisional
    down and up rates, critical density, thermal widths and the thermal
    absorption cross-section. They read the molecule and never change it. */
module Queries {
  import opened Wrappers
  import opened Physics
  import opened Molecules
  import opened MoleculeFacts

  // ------------------------------------------------------------ sums

  /** Python's `sum(terms)`: the terms added from left to right. */
  function Sum(s: seq<real>): real {
    if s == [] then 0.0 else Sum(s[..|s| - 1]) + s[|s| - 1]
  }

  /** Dividing every term by z divides the sum by z. */
  lemma {:induction false} SumScaled(s: seq<real>, t: seq<real>, z: real)
    requires z != 0.0 && |s| == |t|
    requires forall i :: 0 <= i < |s| ==> t[i] == s[i] / z
    ensures Sum(t) == Sum(s) / z
  {
    if s != [] {
      var n := |s| - 1;
      SumScaled(s[..n], t[..n], z);
      assert t[n] == s[n] / z;
    }
  }

  /** A sum of positive terms is positive when there is a term, and no term
      exceeds it. */
  lemma {:induction false} SumPositive(s: seq<real>)
    requires forall i :: 0 <= i < |s| ==> s[i] > 0.0
    ensures Sum(s) >= 0.0 && (s != [] ==> Sum(s) > 0.0)
    ensures forall i :: 0 <= i < |s| ==> s[i] <= Sum(s)
  {
    if s != [] {
      var n := |s| - 1;
      SumPositive(s[..n]);
      forall i | 0 <= i < |s|
        ensures s[i] <= Sum(s)
      {
        if i < n {
          assert s[..n][i] == s[i];
        }
      }
    }
  }

  // ------------------------------------------- partition function, levels

  /** g_i exp(-E_i / (k T)), the Boltzmann term of one level. */
  function LevelTerm(exp: ExpFn, v: Level, tk: real): (r: real)
    requires tk != 0.0
    ensures v.weight > 0.0 ==> r > 0.0
  {
    assert exp(-v.energy / (KB * tk)) > 0.0;
    v.weight * exp(-v.energy / (KB * tk))
  }

  /** The terms of get_partition_func, one for each i in range(nlev). */
  function PartitionTerms(exp: ExpFn, m: Molecule, tk: real): (r: seq<real>)
    requires tk != 0.0 && Count(m.nlev) <= |m.levels|
    ensures |r| == Count(m.nlev)
    ensures forall i :: 0 <= i < |r| ==> r[i] == LevelTerm(exp, m.levels[i], tk)
  {
    seq(Count(m.nlev), i requires 0 <= i < Count(m.nlev) => LevelTerm(exp, m.levels[i], tk))
  }

  /** get_partition_func: the sum of the level terms. */
  function PartitionFunc(exp: ExpFn, m: Molecule, tk: real): real
    requires tk != 0.0 && Count(m.nlev) <= |m.levels|
  {
    Sum(PartitionTerms(exp, m, tk))
  }

  /** With at least one level and positive weights the partition function is
      positive, and no level term exceeds it. */
  lemma PartitionFuncPositive(exp: ExpFn, m: Molecule, tk: real)
    requires tk != 0.0 && Count(m.nlev) <= |m.levels|
    requires forall i :: 0 <= i < Count(m.nlev) ==> m.levels[i].weight > 0.0
    ensures m.nlev > 0 ==> PartitionFunc(exp, m, tk) > 0.0
    ensures forall i :: 0 <= i < Count(m.nlev) ==> 0.0 < LevelTerm(exp, m.levels[i], tk) <= PartitionFunc(exp, m, tk)
  {
    var terms := PartitionTerms(exp, m, tk);
    SumPositive(terms);
  }

  /** The population of one level: its Boltzmann term over the partition
      function zt. */
  function Population(exp: ExpFn, v: Level, tk: real, zt: real): real
    requires tk != 0.0 && zt != 0.0
  {
    LevelTerm(exp, v, tk) / zt
  }

  /** get_boltzmann_levels: each level term divided by the partition function
      (a partition function of zero raises ZeroDivisionError). */
  function BoltzmannLevels(exp: ExpFn, m: Molecule, tk: real): (r: seq<real>)
    requires tk != 0.0 && Count(m.nlev) <= |m.levels|
    requires PartitionFunc(exp, m, tk) != 0.0
    ensures |r| == Count(m.nlev)
  {
    var zt := PartitionFunc(exp, m, tk);
    seq(Count(m.nlev), i requires 0 <= i < Count(m.nlev) => Population(exp, m.levels[i], tk, zt))
  }

  /** The level populations sum to one. */
  lemma BoltzmannLevelsSumToOne(exp: ExpFn, m: Molecule, tk: real)
    requires tk != 0.0 && Count(m.nlev) <= |m.levels|
    requires PartitionFunc(exp, m, tk) != 0.0
    ensures Sum(BoltzmannLevels(exp, m, tk)) == 1.0
  {
    var zt := PartitionFunc(exp, m, tk);
    SumScaled(PartitionTerms(exp, m, tk), BoltzmannLevels(exp, m, tk), zt);
  }

  /** With positive weights every level population lies in (0, 1]. */
  lemma BoltzmannLevelsBounds(exp: ExpFn, m: Molecule, tk: real)
    requires tk != 0.0 && Count(m.nlev) <= |m.levels| && m.nlev > 0
    requires forall i :: 0 <= i < Count(m.nlev) ==> m.levels[i].weight > 0.0
    ensures PartitionFunc(exp, m, tk) > 0.0
    ensures forall i :: 0 <= i < Count(m.nlev) ==> 0.0 < BoltzmannLevels(exp, m, tk)[i] <= 1.0
  {
    PartitionFuncPositive(exp, m, tk);
    var zt := PartitionFunc(exp, m, tk);
    var pops := BoltzmannLevels(exp, m, tk);
    forall i | 0 <= i < Count(m.nlev)
      ensures 0.0 < pops[i] <= 1.0
    {
      QuotBounds(LevelTerm(exp, m.levels[i], tk), zt);
      QuotPos(LevelTerm(exp, m.levels[i], tk), zt);
    }
  }

  // ---------------------------------------------------- Boltzmann ratios

  /** Two levels a ratio can be taken between: both are valid Python indices
      and the lower one has a non-zero weight. */
  predicate LevelPair(levels: seq<Level>, up: int, lo: int) {
    PyValid(up, |levels|) && PyValid(lo, |levels|) && PyAt(levels, lo).weight != 0.0
  }

  /** (g_u / g_l) exp(-(E_u - E_l) / (k T)), the ratio both
      get_boltzmann_ratio methods compute for their level pair. */
  function LevelRatio(exp: ExpFn, levels: seq<Level>, up: int, lo: int, tk: real): real
    requires LevelPair(levels, up, lo) && tk != 0.0
  {
    var u := PyAt(levels, up);
    var l := PyAt(levels, lo);
    (u.weight / l.weight) * exp(-(u.energy - l.energy) / (KB * tk))
  }

  /** Molecule.get_boltzmann_ratio: the ratio for radiative line iline. */
  function LineRatio(exp: ExpFn, m: Molecule, iline: int, tk: real): real
    requires PyValid(iline, |m.lines|) && tk != 0.0
    requires LevelPair(m.levels, PyAt(m.lines, iline).up, PyAt(m.lines, iline).lo)
  {
    var l := PyAt(m.lines, iline);
    LevelRatio(exp, m.levels, l.up, l.lo, tk)
  }

  /** Coll.get_boltzmann_ratio: the ratio for collisional transition itrans,
      taken over the levels of the molecule the partner belongs to. */
  function CollRatio(exp: ExpFn, m: Molecule, c: Coll, itrans: int, tk: real): real
    requires PyValid(itrans, |c.trans|) && tk != 0.0
    requires LevelPair(m.levels, PyAt(c.trans, itrans).up, PyAt(c.trans, itrans).lo)
  {
    var t := PyAt(c.trans, itrans);
    LevelRatio(exp, m.levels, t.up, t.lo, tk)
  }

  /** The population of level i, also for a negative Python index. */
  lemma PopulationAt(exp: ExpFn, m: Molecule, i: int, tk: real)
    requires tk != 0.0 && |m.levels| == Count(m.nlev)
    requires PartitionFunc(exp, m, tk) != 0.0
    requires PyValid(i, |m.levels|)
    ensures PyAt(BoltzmannLevels(exp, m, tk), i) == Population(exp, PyAt(m.levels, i), tk, PartitionFunc(exp, m, tk))
  {
  }

  lemma QuotientOfScaled(gu: real, gl: real, eu: real, el: real, z: real)
    requires gl != 0.0 && el != 0.0 && z != 0.0
    ensures gl * el / z != 0.0
    ensures (gu * eu / z) / (gl * el / z) == (gu / gl) * (eu / el)
  {
    assert gl * el != 0.0;
  }

  lemma ExponentDifference(eu: real, el: real, kt: real)
    requires kt != 0.0
    ensures -eu / kt - -el / kt == -(eu - el) / kt
  {
  }

  /** The quotient of two Boltzmann terms over the same partition function. */
  lemma TermQuotient(exp: ExpFn, gu: real, gl: real, eu: real, el: real, tk: real, z: real, pu: real, pl: real)
    requires gl != 0.0 && tk != 0.0 && z != 0.0
    requires pu == gu * exp(-eu / (KB * tk)) / z && pl == gl * exp(-el / (KB * tk)) / z
    ensures pl != 0.0 && pu / pl == (gu / gl) * exp(-(eu - el) / (KB * tk))
  {
    var a := -el / (KB * tk);
    var b := -eu / (KB * tk);
    var d := -(eu - el) / (KB * tk);
    assert exp(a) > 0.0;
    QuotientOfScaled(gu, gl, exp(b), exp(a), z);
    assert pu / pl == (gu / gl) * (exp(b) / exp(a));
    ExpQuotient(exp, a, b);
    ExponentDifference(eu, el, KB * tk);
    assert b - a == d;
    assert exp(b) / exp(a) == exp(d);
  }

  /** For any populations proportional to the Boltzmann terms, the Boltzmann
      ratio of two levels is the ratio of their populations. */
  lemma RatioOfProportional(exp: ExpFn, levels: seq<Level>, pops: seq<real>, z: real, up: int, lo: int, tk: real)
    requires |pops| == |levels| && LevelPair(levels, up, lo) && tk != 0.0 && z != 0.0
    requires PyAt(pops, up) == Population(exp, PyAt(levels, up), tk, z)
    requires PyAt(pops, lo) == Population(exp, PyAt(levels, lo), tk, z)
    ensures PyAt(pops, lo) != 0.0
    ensures LevelRatio(exp, levels, up, lo, tk) == PyAt(pops, up) / PyAt(pops, lo)
  {
    var u := PyAt(levels, up);
    var l := PyAt(levels, lo);
    TermQuotient(exp, u.weight, l.weight, u.energy, l.energy, tk, z, PyAt(pops, up), PyAt(pops, lo));
  }

  /** The Boltzmann ratio of two levels is the ratio of their Boltzmann
      populations. */
  lemma RatioOfPopulations(exp: ExpFn, m: Molecule, up: int, lo: int, tk: real)
    requires tk != 0.0 && |m.levels| == Count(m.nlev)
    requires PartitionFunc(exp, m, tk) != 0.0
    requires LevelPair(m.levels, up, lo)
    ensures PyAt(BoltzmannLevels(exp, m, tk), lo) != 0.0
    ensures LevelRatio(exp, m.levels, up, lo, tk)
         == PyAt(BoltzmannLevels(exp, m, tk), up) / PyAt(BoltzmannLevels(exp, m, tk), lo)
  {
    PopulationAt(exp, m, up, tk);
    PopulationAt(exp, m, lo, tk);
    var pops := BoltzmannLevels(exp, m, tk);
    var z := PartitionFunc(exp, m, tk);
    RatioOfProportional(exp, m.levels, pops, z, up, lo, tk);
  }

  /** For a radiative line: the ratio is n_up / n_lo of the Boltzmann
      populations. */
  lemma LineRatioOfPopulations(exp: ExpFn, m: Molecule, iline: int, tk: real)
    requires tk != 0.0 && |m.levels| == Count(m.nlev)
    requires PartitionFunc(exp, m, tk) != 0.0
    requires PyValid(iline, |m.lines|)
    requires LevelPair(m.levels, PyAt(m.lines, iline).up, PyAt(m.lines, iline).lo)
    ensures PyAt(BoltzmannLevels(exp, m, tk), PyAt(m.lines, iline).lo) != 0.0
    ensures LineRatio(exp, m, iline, tk)
         == PyAt(BoltzmannLevels(exp, m, tk), PyAt(m.lines, iline).up)
          / PyAt(BoltzmannLevels(exp, m, tk), PyAt(m.lines, iline).lo)
  {
    RatioOfPopulations(exp, m, PyAt(m.lines, iline).up, PyAt(m.lines, iline).lo, tk);
  }

  // -------------------------------------------------- collisional rates

  predicate StrictlyIncreasing(xs: seq<real>) {
    forall i, j :: 0 <= i < j < |xs| ==> xs[i] < xs[j]
  }

  /** numpy's `searchsorted(xs, v)` (side "left") from position i: the first
      index k >= i with xs[k] >= v, or |xs| if there is none. */
  function SearchLeft(xs: seq<real>, v: real, i: nat): (k: nat)
    requires i <= |xs|
    ensures i <= k <= |xs|
    ensures forall j :: i <= j < k ==> xs[j] < v
    ensures k < |xs| ==> xs[k] >= v
    decreases |xs| - i
  {
    if i == |xs| || xs[i] >= v then i else SearchLeft(xs, v, i + 1)
  }

  /** The straight line through (x0, y0) and (x1, y1) at v, as scipy writes
      it: slope * (v - x0) + y0. */
  function Lerp(x0: real, x1: real, y0: real, y1: real, v: real): real
    requires x0 != x1
  {
    (y1 - y0) / (x1 - x0) * (v - x0) + y0
  }

  /** The line passes through its two points. */
  lemma LerpEnds(x0: real, x1: real, y0: real, y1: real)
    requires x0 != x1
    ensures Lerp(x0, x1, y0, y1, x0) == y0
    ensures Lerp(x0, x1, y0, y1, x1) == y1
  {
  }

  /** Between its two points the line stays between their values. */
  lemma LerpBetween(x0: real, x1: real, y0: real, y1: real, v: real)
    requires x0 < x1 && x0 <= v <= x1
    ensures y0 <= y1 ==> y0 <= Lerp(x0, x1, y0, y1, v) <= y1
    ensures y1 <= y0 ==> y1 <= Lerp(x0, x1, y0, y1, v) <= y0
  {
    var slope := (y1 - y0) / (x1 - x0);
    assert slope * (x1 - x0) == y1 - y0;
    QuotientSign(y1 - y0, x1 - x0);
    assert Lerp(x0, x1, y0, y1, v) == slope * (v - x0) + y0;
    ScaledBetween(slope, v - x0, x1 - x0);
  }

  /** Dividing by a positive number keeps the sign. */
  lemma QuotientSign(a: real, b: real)
    requires b > 0.0
    ensures a >= 0.0 ==> a / b >= 0.0
    ensures a <= 0.0 ==> a / b <= 0.0
  {
  }

  /** A step d within [0, w] at slope s moves by s d, between 0 and s w. */
  lemma ScaledBetween(s: real, d: real, w: real)
    requires 0.0 <= d <= w
    ensures s >= 0.0 ==> 0.0 <= s * d <= s * w
    ensures s <= 0.0 ==> s * w <= s * d <= 0.0
  {
    assert s * w - s * d == s * (w - d);
  }

  /** scipy's `interp1d(xs, ys)(v)` on strictly increasing sample points and
      v within them: the index from searchsorted, clipped to [1, |xs| - 1],
      picks the segment, and the value is read off its line. */
  function Interp1d(xs: seq<real>, ys: seq<real>, v: real): real
    requires |xs| == |ys| >= 2 && StrictlyIncreasing(xs)
    requires xs[0] <= v <= xs[|xs| - 1]
  {
    var k := SearchLeft(xs, v, 0);
    var hi := if k < 1 then 1 else if k > |xs| - 1 then |xs| - 1 else k;
    Lerp(xs[hi - 1], xs[hi], ys[hi - 1], ys[hi], v)
  }

  /** The largest element. */
  function Max(s: seq<real>): (m: real)
    requires s != []
    ensures m in s
    ensures forall i :: 0 <= i < |s| ==> s[i] <= m
  {
    if |s| == 1 then s[0]
    else
      var rest := Max(s[1..]);
      assert forall i :: 1 <= i < |s| ==> s[i] == s[1..][i - 1];
      if s[0] >= rest then s[0] else rest
  }

  /** interp1d never leaves the range of its sample values. */
  lemma Interp1dWithinSamples(xs: seq<real>, ys: seq<real>, v: real)
    requires |xs| == |ys| >= 2 && StrictlyIncreasing(xs)
    requires xs[0] <= v <= xs[|xs| - 1]
    ensures Min(ys) <= Interp1d(xs, ys, v) <= Max(ys)
  {
    var k := SearchLeft(xs, v, 0);
    var hi := if k < 1 then 1 else if k > |xs| - 1 then |xs| - 1 else k;
    assert xs[hi - 1] <= v <= xs[hi];
    LerpBetween(xs[hi - 1], xs[hi], ys[hi - 1], ys[hi], v);
    assert Interp1d(xs, ys, v) == Lerp(xs[hi - 1], xs[hi], ys[hi - 1], ys[hi], v);
  }

  /** On any segment [xs[j - 1], xs[j]] that holds v, the interpolation is
      that segment's line; the segment scipy picks is either this one or,
      when v is the sample xs[j - 1], the one before it, whose line ends at
      the same value. */
  lemma Interp1dOnSegment(xs: seq<real>, ys: seq<real>, v: real, j: nat)
    requires |xs| == |ys| >= 2 && StrictlyIncreasing(xs)
    requires 1 <= j < |xs| && xs[j - 1] <= v <= xs[j]
    ensures Interp1d(xs, ys, v) == Lerp(xs[j - 1], xs[j], ys[j - 1], ys[j], v)
  {
    var k := SearchLeft(xs, v, 0);
    assert j - 1 <= k <= j;
    if k == j - 1 && j >= 2 {
      assert v == xs[j - 1];
      LerpEnds(xs[j - 2], xs[j - 1], ys[j - 2], ys[j - 1]);
      LerpEnds(xs[j - 1], xs[j], ys[j - 1], ys[j]);
    }
  }

  /** What get_down_rate needs of a partner's table (the source checks none
      of it): at least one temperature, temperatures strictly increasing, a
      second temperature when the file announces more than one, and one rate
      per temperature in every transition. */
  predicate RatesOk(c: Coll) {
    && |c.temp| >= 1 && StrictlyIncreasing(c.temp)
    && (c.ntemp > 1 ==> |c.temp| >= 2)
    && forall t :: t in c.trans ==> |t.kul| == |c.temp|
  }

  /** The rates of transition itrans (a Python index). */
  function Rates(c: Coll, itrans: int): (kul: seq<real>)
    requires RatesOk(c) && PyValid(itrans, |c.trans|)
    ensures |kul| == |c.temp|
  {
    assert PyAt(c.trans, itrans) in c.trans;
    PyAt(c.trans, itrans).kul
  }

  /** Coll.get_down_rate: below the first temperature the first rate, above
      the last the last rate, in between the linear interpolation when the
      file announces more than one temperature, and otherwise the first
      rate. */
  function DownRate(c: Coll, itrans: int, tk: real): real
    requires RatesOk(c) && PyValid(itrans, |c.trans|)
  {
    var kul := Rates(c, itrans);
    if tk < c.temp[0] then kul[0]
    else if tk > c.temp[|c.temp| - 1] then kul[|kul| - 1]
    else if c.ntemp > 1 then Interp1d(c.temp, kul, tk)
    else kul[0]
  }

  /** No extrapolation: outside the table the rate is held at the nearest
      end, and a table of one temperature gives its one rate everywhere. */
  lemma DownRateClamped(c: Coll, itrans: int, tk: real)
    requires RatesOk(c) && PyValid(itrans, |c.trans|)
    ensures tk < c.temp[0] ==> DownRate(c, itrans, tk) == Rates(c, itrans)[0]
    ensures tk > c.temp[|c.temp| - 1] ==> DownRate(c, itrans, tk) == Rates(c, itrans)[|c.temp| - 1]
    ensures |c.temp| == 1 ==> DownRate(c, itrans, tk) == Rates(c, itrans)[0]
  {
  }

  /** Within the table, on a segment [temp[j - 1], temp[j]] holding T, the
      rate is the straight line between the segment's two rates, so it lies
      between them. */
  lemma DownRateOnSegment(c: Coll, itrans: int, tk: real, j: nat)
    requires RatesOk(c) && PyValid(itrans, |c.trans|) && c.ntemp == |c.temp|
    requires 1 <= j < |c.temp| && c.temp[j - 1] <= tk <= c.temp[j]
    ensures DownRate(c, itrans, tk)
         == Lerp(c.temp[j - 1], c.temp[j], Rates(c, itrans)[j - 1], Rates(c, itrans)[j], tk)
    ensures var kul := Rates(c, itrans);
      (kul[j - 1] <= kul[j] ==> kul[j - 1] <= DownRate(c, itrans, tk) <= kul[j]) &&
      (kul[j] <= kul[j - 1] ==> kul[j] <= DownRate(c, itrans, tk) <= kul[j - 1])
  {
    var kul := Rates(c, itrans);
    assert c.temp[0] <= c.temp[j - 1] && c.temp[j] <= c.temp[|c.temp| - 1];
    Interp1dOnSegment(c.temp, kul, tk, j);
    LerpBetween(c.temp[j - 1], c.temp[j], kul[j - 1], kul[j], tk);
  }

  /** No extrapolation, at any temperature: the rate lies between the least
      and the greatest tabulated rate of the transition. */
  lemma DownRateWithinRates(c: Coll, itrans: int, tk: real)
    requires RatesOk(c) && PyValid(itrans, |c.trans|)
    ensures Min(Rates(c, itrans)) <= DownRate(c, itrans, tk) <= Max(Rates(c, itrans))
  {
    var kul := Rates(c, itrans);
    if c.temp[0] <= tk <= c.temp[|c.temp| - 1] && c.ntemp > 1 {
      Interp1dWithinSamples(c.temp, kul, tk);
    }
  }

  /** At a tabulated temperature the rate is the tabulated rate. */
  lemma DownRateAtSample(c: Coll, itrans: int, j: nat)
    requires RatesOk(c) && PyValid(itrans, |c.trans|) && c.ntemp == |c.temp|
    requires j < |c.temp|
    ensures DownRate(c, itrans, c.temp[j]) == Rates(c, itrans)[j]
  {
    var kul := Rates(c, itrans);
    if |c.temp| > 1 {
      var s := if j == 0 then 1 else j;
      assert c.temp[s - 1] <= c.temp[j] <= c.temp[s];
      DownRateOnSegment(c, itrans, c.temp[j], s);
      LerpEnds(c.temp[s - 1], c.temp[s], kul[s - 1], kul[s]);
    }
  }

  /** Coll.get_up_rate as written: the down rate of transition 0, whatever
      itrans is, times the Boltzmann ratio of itrans. */
  function UpRateAsWritten(exp: ExpFn, m: Molecule, c: Coll, itrans: int, tk: real): real
    requires RatesOk(c) && PyValid(itrans, |c.trans|) && tk != 0.0
    requires LevelPair(m.levels, PyAt(c.trans, itrans).up, PyAt(c.trans, itrans).lo)
  {
    DownRate(c, 0, tk) * CollRatio(exp, m, c, itrans, tk)
  }

  /** The upward rate the docstring of get_up_rate describes:
      K_lu = K_ul (g_u / g_l) exp(-(E_u - E_l) / (k T)) for the same
      transition itrans. */
  function UpRate(exp: ExpFn, m: Molecule, c: Coll, itrans: int, tk: real): real
    requires RatesOk(c) && PyValid(itrans, |c.trans|) && tk != 0.0
    requires LevelPair(m.levels, PyAt(c.trans, itrans).up, PyAt(c.trans, itrans).lo)
  {
    DownRate(c, itrans, tk) * CollRatio(exp, m, c, itrans, tk)
  }

  lemma BalanceStep(pu: real, pl: real, d: real, ratio: real, k: real)
    requires pl != 0.0 && ratio == pu / pl && k == d * ratio
    ensures pl * k == pu * d
  {
  }

  /** Detailed balance for any populations proportional to the Boltzmann
      terms. */
  lemma FlowsBalance(exp: ExpFn, m: Molecule, pops: seq<real>, z: real, c: Coll, itrans: int, tk: real)
    requires |pops| == |m.levels| && tk != 0.0 && z != 0.0
    requires RatesOk(c) && PyValid(itrans, |c.trans|)
    requires LevelPair(m.levels, PyAt(c.trans, itrans).up, PyAt(c.trans, itrans).lo)
    requires PyAt(pops, PyAt(c.trans, itrans).up) == Population(exp, PyAt(m.levels, PyAt(c.trans, itrans).up), tk, z)
    requires PyAt(pops, PyAt(c.trans, itrans).lo) == Population(exp, PyAt(m.levels, PyAt(c.trans, itrans).lo), tk, z)
    ensures PyAt(pops, PyAt(c.trans, itrans).lo) * UpRate(exp, m, c, itrans, tk)
         == PyAt(pops, PyAt(c.trans, itrans).up) * DownRate(c, itrans, tk)
  {
    var t := PyAt(c.trans, itrans);
    RatioOfProportional(exp, m.levels, pops, z, t.up, t.lo, tk);
    BalanceStep(PyAt(pops, t.up), PyAt(pops, t.lo), DownRate(c, itrans, tk),
      CollRatio(exp, m, c, itrans, tk), UpRate(exp, m, c, itrans, tk));
  }

  /** Detailed balance: in thermal equilibrium the upward flow n_l K_lu of
      transition itrans equals its downward flow n_u K_ul. */
  lemma UpRateDetailedBalance(exp: ExpFn, m: Molecule, c: Coll, itrans: int, tk: real)
    requires tk != 0.0 && |m.levels| == Count(m.nlev)
    requires PartitionFunc(exp, m, tk) != 0.0
    requires RatesOk(c) && PyValid(itrans, |c.trans|)
    requires LevelPair(m.levels, PyAt(c.trans, itrans).up, PyAt(c.trans, itrans).lo)
    ensures PyAt(BoltzmannLevels(exp, m, tk), PyAt(c.trans, itrans).lo) * UpRate(exp, m, c, itrans, tk)
         == PyAt(BoltzmannLevels(exp, m, tk), PyAt(c.trans, itrans).up) * DownRate(c, itrans, tk)
  {
    PopulationAt(exp, m, PyAt(c.trans, itrans).up, tk);
    PopulationAt(exp, m, PyAt(c.trans, itrans).lo, tk);
    FlowsBalance(exp, m, BoltzmannLevels(exp, m, tk), PartitionFunc(exp, m, tk), c, itrans, tk);
  }

  /** The code as written agrees with the intended rate exactly when it is
      asked about a transition whose down rate is that of transition 0. */
  lemma UpRateAsWrittenAgrees(exp: ExpFn, m: Molecule, c: Coll, itrans: int, tk: real)
    requires RatesOk(c) && PyValid(itrans, |c.trans|) && tk != 0.0
    requires LevelPair(m.levels, PyAt(c.trans, itrans).up, PyAt(c.trans, itrans).lo)
    ensures DownRate(c, itrans, tk) == DownRate(c, 0, tk)
        ==> UpRateAsWritten(exp, m, c, itrans, tk) == UpRate(exp, m, c, itrans, tk)
    ensures CollRatio(exp, m, c, itrans, tk) != 0.0 && DownRate(c, itrans, tk) != DownRate(c, 0, tk)
        ==> UpRateAsWritten(exp, m, c, itrans, tk) != UpRate(exp, m, c, itrans, tk)
  {
  }

  /** A partner with two transitions out of level 0, read at a single
      temperature of 10 K, over three levels of equal energy and weight. */
  function TwoRateLevels(): seq<Level> {
    [Level(0.0, 1.0, "0"), Level(0.0, 1.0, "1"), Level(0.0, 1.0, "2")]
  }

  function TwoRatePartner(): Coll {
    Coll(1, "H2", "", 2, 1, [10.0], [CollTrans(1, 0, [1.0]), CollTrans(2, 0, [2.0])])
  }

  function TwoRateMolecule(): Molecule {
    Molecule("x", "x", "x", 1.0, AMU, 3, "J", TwoRateLevels(), 0, [], 0.0, 1, [TwoRatePartner()])
  }

  /** get_up_rate as written breaks detailed balance: for transition 1 of
      the partner above it returns 1 m^3 s^-1 (transition 0's rate) where
      the balance needs 2. */
  lemma UpRateAsWrittenCounterexample(exp: ExpFn)
    ensures var m := TwoRateMolecule();
      var c := TwoRatePartner();
      RatesOk(c) && LevelPair(m.levels, 2, 0) && PartitionFunc(exp, m, 10.0) != 0.0
      && UpRateAsWritten(exp, m, c, 1, 10.0) == 1.0
      && UpRate(exp, m, c, 1, 10.0) == 2.0
      && PyAt(BoltzmannLevels(exp, m, 10.0), 0) * UpRateAsWritten(exp, m, c, 1, 10.0)
         != PyAt(BoltzmannLevels(exp, m, 10.0), 2) * DownRate(c, 1, 10.0)
  {
    var m := TwoRateMolecule();
    var c := TwoRatePartner();
    assert c.trans[1] in c.trans;
    assert RatesOk(c);
    PartitionFuncPositive(exp, m, 10.0);
    ExpZero(exp);
    assert -(0.0 - 0.0) / (KB * 10.0) == 0.0;
    assert CollRatio(exp, m, c, 1, 10.0) == 1.0;
    assert DownRate(c, 1, 10.0) == 2.0;
    assert DownRate(c, 0, 10.0) == 1.0;
    UpRateDetailedBalance(exp, m, c, 1, 10.0);
    RatioOfPopulations(exp, m, 2, 0, 10.0);
  }

  // ---------------------------------------------------- critical density

  /** Why get_crit_dens gives no density: the line has no collisional
      counterpart (the source raises), or the counterpart's down rate is zero
      (ZeroDivisionError). */
  datatype QueryError = NoCounterpart(iline: int) | DivisionByZero

  /** Transition t joins the same two levels as the line. */
  predicate Joins(t: CollTrans, up: int, lo: int) {
    t.up == up && t.lo == lo
  }

  /** The first transition in [i, n) joining up and lo, or n when there is
      none. */
  function FirstJoining(trans: seq<CollTrans>, up: int, lo: int, i: nat, n: nat): (k: nat)
    requires i <= n <= |trans|
    ensures i <= k <= n
    ensures forall j :: i <= j < k ==> !Joins(trans[j], up, lo)
    ensures k < n ==> Joins(trans[k], up, lo)
    decreases n - i
  {
    if i == n then n
    else if Joins(trans[i], up, lo) then i
    else FirstJoining(trans, up, lo, i + 1, n)
  }

  /** Coll.get_crit_dens as a value: A_ul of line iline over the down rate of
      the first of the partner's ntrans transitions between the same two
      levels. */
  function CritDensOf(m: Molecule, c: Coll, iline: int, tk: real): Result<real, QueryError>
    requires PyValid(iline, |m.lines|)
    requires RatesOk(c) && Count(c.ntrans) <= |c.trans|
  {
    var l := PyAt(m.lines, iline);
    var k := FirstJoining(c.trans, l.up, l.lo, 0, Count(c.ntrans));
    if k == Count(c.ntrans) then Failure(NoCounterpart(iline))
    else if DownRate(c, k, tk) == 0.0 then Failure(DivisionByZero)
    else Success(l.aul / DownRate(c, k, tk))
  }

  /** The critical density is found exactly when some transition joins the
      line's levels and its rate is not zero; it then balances A_ul against
      that transition's down rate. */
  lemma CritDensOfFound(m: Molecule, c: Coll, iline: int, tk: real, i: nat)
    requires PyValid(iline, |m.lines|)
    requires RatesOk(c) && Count(c.ntrans) <= |c.trans|
    requires i < Count(c.ntrans)
    requires Joins(c.trans[i], PyAt(m.lines, iline).up, PyAt(m.lines, iline).lo)
    requires forall j :: 0 <= j < i ==> !Joins(c.trans[j], PyAt(m.lines, iline).up, PyAt(m.lines, iline).lo)
    ensures DownRate(c, i, tk) == 0.0 ==> CritDensOf(m, c, iline, tk) == Failure(DivisionByZero)
    ensures DownRate(c, i, tk) != 0.0 ==>
      (CritDensOf(m, c, iline, tk).Success?
       && CritDensOf(m, c, iline, tk).value * DownRate(c, i, tk) == PyAt(m.lines, iline).aul)
  {
    var l := PyAt(m.lines, iline);
    var k := FirstJoining(c.trans, l.up, l.lo, 0, Count(c.ntrans));
    assert k == i;
  }

  /** The line has no counterpart exactly when none of the partner's ntrans
      transitions joins its levels. */
  lemma CritDensOfMissing(m: Molecule, c: Coll, iline: int, tk: real)
    requires PyValid(iline, |m.lines|)
    requires RatesOk(c) && Count(c.ntrans) <= |c.trans|
    ensures CritDensOf(m, c, iline, tk) == Failure(NoCounterpart(iline))
        <==> forall j :: 0 <= j < Count(c.ntrans) ==> !Joins(c.trans[j], PyAt(m.lines, iline).up, PyAt(m.lines, iline).lo)
  {
  }

  /** get_crit_dens: search the partner's transitions in order, stop at the
      first that joins the line's levels, and divide A_ul by its down rate. */
  method CritDens(m: Molecule, c: Coll, iline: int, tk: real) returns (r: Result<real, QueryError>)
    requires PyValid(iline, |m.lines|)
    requires RatesOk(c) && Count(c.ntrans) <= |c.trans|
    ensures r == CritDensOf(m, c, iline, tk)
  {
    var l := PyAt(m.lines, iline);
    var n := Count(c.ntrans);
    var found := false;
    var kul := 0.0;
    var i := 0;
    while i < n
      invariant 0 <= i <= n
      invariant forall j :: 0 <= j < i ==> !Joins(c.trans[j], l.up, l.lo)
      invariant !found
    {
      if c.trans[i].up == l.up && c.trans[i].lo == l.lo {
        kul := DownRate(c, i, tk);
        found := true;
        break;
      }
      i := i + 1;
    }
    assert found ==> i < n && Joins(c.trans[i], l.up, l.lo);
    assert FirstJoining(c.trans, l.up, l.lo, 0, n) == i;
    if !found {
      return Failure(NoCounterpart(iline));
    }
    if kul == 0.0 {
      return Failure(DivisionByZero);
    }
    r := Success(l.aul / kul);
  }

  // ------------------------------------------------ thermal line widths

  /** Molecule.get_thermal_vwidth: the thermal velocity width of the
      molecule, sqrt(2 k T / m). */
  function MolThermalVWidth(sqrt: real -> real, m: Molecule, tk: real): (r: real)
    requires IsSqrt(sqrt) && m.mass != 0.0 && 2.0 * KB * tk / m.mass >= 0.0
    ensures r >= 0.0 && r * r == 2.0 * KB * tk / m.mass
    ensures tk > 0.0 && m.mass > 0.0 ==> r > 0.0
  {
    ThermalVWidth(sqrt, tk, m.mass)
  }

  /** Molecule.get_thermal_fwidth: how far the thermal velocity width shifts
      the frequency of line iline. A width at or above the speed of light is
      outside math.sqrt's domain in the source. */
  function ThermalFWidth(sqrt: real -> real, m: Molecule, iline: int, tk: real): (r: real)
    requires IsSqrt(sqrt) && PyValid(iline, |m.lines|)
    requires m.mass != 0.0 && 2.0 * KB * tk / m.mass >= 0.0
    requires MolThermalVWidth(sqrt, m, tk) <= C
    ensures r >= 0.0
  {
    var f := PyAt(m.lines, iline).freq;
    var v := DopplerVel2Frq(sqrt, f, MolThermalVWidth(sqrt, m, tk));
    if v - f >= 0.0 then v - f else f - v
  }

  /** For a line of positive frequency the width is the red shift
      f - f' of the line, so it is below the line's frequency. */
  lemma ThermalFWidthBounds(sqrt: real -> real, m: Molecule, iline: int, tk: real)
    requires IsSqrt(sqrt) && PyValid(iline, |m.lines|)
    requires m.mass != 0.0 && 2.0 * KB * tk / m.mass >= 0.0
    requires MolThermalVWidth(sqrt, m, tk) < C
    requires PyAt(m.lines, iline).freq > 0.0
    ensures ThermalFWidth(sqrt, m, iline, tk)
         == PyAt(m.lines, iline).freq - DopplerVel2Frq(sqrt, PyAt(m.lines, iline).freq, MolThermalVWidth(sqrt, m, tk))
    ensures 0.0 <= ThermalFWidth(sqrt, m, iline, tk) < PyAt(m.lines, iline).freq
  {
    DopplerRedshift(sqrt, PyAt(m.lines, iline).freq, MolThermalVWidth(sqrt, m, tk));
  }

  // ------------------------------------------------- absorption cross section

  /** The cross section of a line of frequency nu, from the lower and upper
      populations, the Einstein B coefficients and the profile value g. */
  function SigmaFormula(nu: real, pl: real, pu: real, blu: real, bul: real, g: real): real
    requires nu != 0.0
  {
    (H * nu) / (4.0 * PI) * (pl * blu - pu * bul) * (C / nu) * g
  }

  /** The cross section of line iline at velocity vel for level
      populations pops and a Gaussian profile of the thermal width. */
  function SigmaFor(exp: ExpFn, sqrt: real -> real, m: Molecule, pops: seq<real>, tk: real, iline: int, vel: real): real
    requires IsSqrt(sqrt) && PyValid(iline, |m.lines|)
    requires PyValid(PyAt(m.lines, iline).up, |pops|) && PyValid(PyAt(m.lines, iline).lo, |pops|)
    requires PyAt(m.lines, iline).freq != 0.0
    requires m.mass != 0.0 && 2.0 * KB * tk / m.mass >= 0.0
    requires MolThermalVWidth(sqrt, m, tk) != 0.0
  {
    var l := PyAt(m.lines, iline);
    SigmaFormula(l.freq, PyAt(pops, l.lo), PyAt(pops, l.up), l.blu, l.bul,
      GaussianVProfile(exp, sqrt, vel, MolThermalVWidth(sqrt, m, tk)))
  }

  /** Molecule.get_thermal_sigmanu: the absorption cross section of line
      iline at velocity vel, for level populations in thermal equilibrium at
      tk and a Gaussian profile of the thermal width. */
  function ThermalSigmaNu(exp: ExpFn, sqrt: real -> real, m: Molecule, tk: real, iline: int, vel: real): real
    requires IsSqrt(sqrt) && tk != 0.0 && Count(m.nlev) <= |m.levels|
    requires PartitionFunc(exp, m, tk) != 0.0
    requires PyValid(iline, |m.lines|)
    requires PyValid(PyAt(m.lines, iline).up, Count(m.nlev)) && PyValid(PyAt(m.lines, iline).lo, Count(m.nlev))
    requires PyAt(m.lines, iline).freq != 0.0
    requires m.mass != 0.0 && 2.0 * KB * tk / m.mass >= 0.0
    requires MolThermalVWidth(sqrt, m, tk) != 0.0
  {
    SigmaFor(exp, sqrt, m, BoltzmannLevels(exp, m, tk), tk, iline, vel)
  }

  /** At a positive temperature the Boltzmann ratio of an upper level over a
      lower one is positive and at most the ratio of their weights. */
  lemma LevelRatioBelowWeights(exp: ExpFn, levels: seq<Level>, up: int, lo: int, tk: real)
    requires LevelPair(levels, up, lo) && tk > 0.0
    requires PyAt(levels, up).weight > 0.0 && PyAt(levels, lo).weight > 0.0
    requires PyAt(levels, up).energy >= PyAt(levels, lo).energy
    ensures 0.0 < LevelRatio(exp, levels, up, lo, tk) <= PyAt(levels, up).weight / PyAt(levels, lo).weight
  {
    var u := PyAt(levels, up);
    var l := PyAt(levels, lo);
    var x := -(u.energy - l.energy) / (KB * tk);
    assert KB * tk > 0.0;
    assert x <= 0.0;
    var g := u.weight / l.weight;
    assert g > 0.0;
    assert 0.0 < exp(x) <= 1.0;
    assert LevelRatio(exp, levels, up, lo, tk) == g * exp(x);
    assert 0.0 < g * exp(x) <= g * 1.0;
  }

  /** A line of positive frequency goes down in energy from up to lo. */
  lemma LineEnergyGap(l: RadLine, levels: seq<Level>)
    requires PyValid(l.up, |levels|) && PyValid(l.lo, |levels|)
    requires LineConsistent(l, levels) && l.freq > 0.0
    ensures PyAt(levels, l.up).energy > PyAt(levels, l.lo).energy
  {
    assert PyAt(levels, l.up).energy - PyAt(levels, l.lo).energy == l.freq * H;
  }

  /** B_ul = A_ul c^2 / (2 h nu^3) is not negative for a line of positive
      frequency and non-negative A_ul. */
  lemma EinsteinBNonNegative(aul: real, nu: real, bul: real)
    requires aul >= 0.0 && nu > 0.0
    requires bul == aul * C * C / (2.0 * H * (nu * nu * nu))
    ensures bul >= 0.0
  {
    assert nu * nu * nu > 0.0;
  }

  /** The B coefficients of a line with positive frequency and non-negative
      A_ul: B_ul is not negative and B_lu is g_u / g_l times B_ul. */
  lemma LineBCoefficients(l: RadLine, levels: seq<Level>)
    requires PyValid(l.up, |levels|) && PyValid(l.lo, |levels|)
    requires LineConsistent(l, levels) && l.freq > 0.0 && l.aul >= 0.0
    ensures l.bul >= 0.0
    ensures l.blu == (PyAt(levels, l.up).weight / PyAt(levels, l.lo).weight) * l.bul
  {
    EinsteinBNonNegative(l.aul, l.freq, l.bul);
  }

  lemma ProductNonNegative(a: real, b: real, c: real, d: real)
    requires a >= 0.0 && b >= 0.0 && c >= 0.0 && d >= 0.0
    ensures a * b * c * d >= 0.0
  {
  }

  /** Absorption outweighs stimulated emission when the upper population is
      at most g_u / g_l times the lower one. */
  lemma SigmaFormulaNonNegative(nu: real, pl: real, pu: real, ratio: real, gr: real, blu: real, bul: real, g: real)
    requires nu > 0.0 && pl > 0.0 && ratio == pu / pl && ratio <= gr
    requires bul >= 0.0 && blu == gr * bul && g >= 0.0
    ensures SigmaFormula(nu, pl, pu, blu, bul, g) >= 0.0
  {
    assert pu <= pl * gr;
    assert pl * blu - pu * bul == bul * (pl * gr - pu);
    assert PI > 0.0;
    ProductNonNegative((H * nu) / (4.0 * PI), pl * blu - pu * bul, C / nu, g);
  }

  /** In thermal equilibrium at a positive temperature, with positive
      weights, the upper level of a line of positive frequency holds at most
      g_u / g_l times the population of its lower level. */
  lemma LinePopulationsBound(exp: ExpFn, m: Molecule, iline: int, tk: real)
    requires tk > 0.0 && |m.levels| == Count(m.nlev) && m.nlev > 0
    requires forall i :: 0 <= i < Count(m.nlev) ==> m.levels[i].weight > 0.0
    requires PyValid(iline, |m.lines|)
    requires PyValid(PyAt(m.lines, iline).up, |m.levels|) && PyValid(PyAt(m.lines, iline).lo, |m.levels|)
    requires LineConsistent(PyAt(m.lines, iline), m.levels) && PyAt(m.lines, iline).freq > 0.0
    ensures PartitionFunc(exp, m, tk) > 0.0
    ensures PyAt(BoltzmannLevels(exp, m, tk), PyAt(m.lines, iline).lo) > 0.0
    ensures PyAt(BoltzmannLevels(exp, m, tk), PyAt(m.lines, iline).up)
          / PyAt(BoltzmannLevels(exp, m, tk), PyAt(m.lines, iline).lo)
         <= PyAt(m.levels, PyAt(m.lines, iline).up).weight / PyAt(m.levels, PyAt(m.lines, iline).lo).weight
  {
    var l := PyAt(m.lines, iline);
    BoltzmannLevelsBounds(exp, m, tk);
    RatioOfPopulations(exp, m, l.up, l.lo, tk);
    LineEnergyGap(l, m.levels);
    LevelRatioBelowWeights(exp, m.levels, l.up, l.lo, tk);
  }

  /** For any populations in which the lower level of a line is populated
      and the upper one holds at most g_u / g_l times as much, the cross
      section of a line of positive frequency and non-negative A_ul at a
      positive temperature is not negative. */
  lemma SigmaForNonNegative(exp: ExpFn, sqrt: real -> real, m: Molecule, pops: seq<real>, tk: real, iline: int, vel: real)
    requires IsSqrt(sqrt) && tk > 0.0 && m.mass > 0.0 && |pops| == |m.levels|
    requires PyValid(iline, |m.lines|)
    requires PyValid(PyAt(m.lines, iline).up, |m.levels|) && PyValid(PyAt(m.lines, iline).lo, |m.levels|)
    requires LineConsistent(PyAt(m.lines, iline), m.levels)
    requires PyAt(m.lines, iline).freq > 0.0 && PyAt(m.lines, iline).aul >= 0.0
    requires PyAt(pops, PyAt(m.lines, iline).lo) > 0.0
    requires PyAt(pops, PyAt(m.lines, iline).up) / PyAt(pops, PyAt(m.lines, iline).lo)
          <= PyAt(m.levels, PyAt(m.lines, iline).up).weight / PyAt(m.levels, PyAt(m.lines, iline).lo).weight
    ensures 2.0 * KB * tk / m.mass > 0.0 && SigmaFor(exp, sqrt, m, pops, tk, iline, vel) >= 0.0
  {
    var l := PyAt(m.lines, iline);
    LineBCoefficients(l, m.levels);
    assert 2.0 * KB * tk / m.mass > 0.0;
    var g := GaussianVProfile(exp, sqrt, vel, MolThermalVWidth(sqrt, m, tk));
    SigmaFormulaNonNegative(l.freq, PyAt(pops, l.lo), PyAt(pops, l.up), PyAt(pops, l.up) / PyAt(pops, l.lo),
      PyAt(m.levels, l.up).weight / PyAt(m.levels, l.lo).weight, l.blu, l.bul, g);
  }

  /** In thermal equilibrium, with positive weights, a positive temperature
      and a line of positive frequency and non-negative A_ul, the absorption
      cross section is not negative. */
  lemma ThermalSigmaNuNonNegative(exp: ExpFn, sqrt: real -> real, m: Molecule, tk: real, iline: int, vel: real)
    requires IsSqrt(sqrt) && tk > 0.0 && m.mass > 0.0
    requires |m.levels| == Count(m.nlev) && m.nlev > 0
    requires forall i :: 0 <= i < Count(m.nlev) ==> m.levels[i].weight > 0.0
    requires PyValid(iline, |m.lines|)
    requires PyValid(PyAt(m.lines, iline).up, |m.levels|) && PyValid(PyAt(m.lines, iline).lo, |m.levels|)
    requires LineConsistent(PyAt(m.lines, iline), m.levels)
    requires PyAt(m.lines, iline).freq > 0.0 && PyAt(m.lines, iline).aul >= 0.0
    ensures PartitionFunc(exp, m, tk) > 0.0 && 2.0 * KB * tk / m.mass > 0.0
      && ThermalSigmaNu(exp, sqrt, m, tk, iline, vel) >= 0.0
  {
    LinePopulationsBound(exp, m, iline, tk);
    SigmaForNonNegative(exp, sqrt, m, BoltzmannLevels(exp, m, tk), tk, iline, vel);
  }
}

=== FILE: text.dfy ===
/** The Python 2 string handling that the molecular-data reader and the keyword
    converters rely on: `str.strip()`, `str.split()`, `str.split(sep)`,
    `sep.join(parts)`, `int(s)` and `float(s)` on strings. */
module Text {
  import opened Wrappers

  /** The characters Python 2's `str.split()` and `str.strip()` treat as whitespace. */
  predicate IsSpace(c: char) {
    c == ' ' || c == '\t' || c == '\n' || c == '\r' || c == '\U{000B}' || c == '\U{000C}'
  }

  predicate NoSpace(s: string) {
    forall i :: 0 <= i < |s| ==> !IsSpace(s[i])
  }

  predicate IsDigit(c: char) {
    '0' <= c <= '9'
  }

  /** The end of the run of whitespace that starts at i. */
  function SpaceRunEnd(s: string, i: nat): (j: nat)
    requires i <= |s|
    ensures i <= j <= |s| && (j < |s| ==> !IsSpace(s[j]))
    decreases |s| - i
  {
    if i < |s| && IsSpace(s[i]) then SpaceRunEnd(s, i + 1) else i
  }

  /** The start of the run of whitespace that ends at j. */
  function SpaceRunStart(s: string, j: nat): (k: nat)
    requires j <= |s|
    ensures k <= j && (k > 0 ==> !IsSpace(s[k - 1]))
  {
    if j > 0 && IsSpace(s[j - 1]) then SpaceRunStart(s, j - 1) else j
  }

  /** The end of the run of non-whitespace characters that starts at i. */
  function WordEnd(s: string, i: nat): (j: nat)
    requires i <= |s|
    ensures i <= j <= |s| && (j < |s| ==> IsSpace(s[j]))
    ensures i < |s| && !IsSpace(s[i]) ==> i < j
    decreases |s| - i
  {
    if i < |s| && !IsSpace(s[i]) then WordEnd(s, i + 1) else i
  }

  lemma {:induction false} SpaceRunEndSpaces(s: string, i: nat)
    requires i <= |s|
    ensures forall k :: i <= k < SpaceRunEnd(s, i) ==> IsSpace(s[k])
    decreases |s| - i
  {
    if i < |s| && IsSpace(s[i]) {
      SpaceRunEndSpaces(s, i + 1);
    }
  }

  lemma {:induction false} SpaceRunStartSpaces(s: string, j: nat)
    requires j <= |s|
    ensures forall k :: SpaceRunStart(s, j) <= k < j ==> IsSpace(s[k])
  {
    if j > 0 && IsSpace(s[j - 1]) {
      SpaceRunStartSpaces(s, j - 1);
    }
  }

  lemma {:induction false} WordEndNoSpace(s: string, i: nat)
    requires i <= |s|
    ensures NoSpace(s[i..WordEnd(s, i)])
    decreases |s| - i
  {
    if i < |s| && !IsSpace(s[i]) {
      WordEndNoSpace(s, i + 1);
      assert s[i..WordEnd(s, i)] == [s[i]] + s[i + 1..WordEnd(s, i)];
    }
  }

  /** `s.lstrip()`: the leading whitespace removed. */
  function TrimLeft(s: string): (r: string)
    ensures r == [] || !IsSpace(r[0])
  {
    s[SpaceRunEnd(s, 0)..]
  }

  /** `s.rstrip()`: the trailing whitespace removed. */
  function TrimRight(s: string): (r: string)
    ensures r == [] || !IsSpace(r[|r| - 1])
  {
    s[..SpaceRunStart(s, |s|)]
  }

  /** `s.strip()`: no whitespace is left at either end, and a string that has
      none there is returned unchanged. */
  function Strip(s: string): (r: string)
    ensures r == [] || (!IsSpace(r[0]) && !IsSpace(r[|r| - 1]))
    ensures |r| <= |s|
    ensures (s == [] || (!IsSpace(s[0]) && !IsSpace(s[|s| - 1]))) ==> r == s
  {
    TrimRight(TrimLeft(s))
  }

  /** Stripping only cuts whitespace off the ends: the result is an infix of
      s with nothing but whitespace around it. */
  lemma StripIsInfix(s: string)
    ensures exists i, j :: 0 <= i <= j <= |s| && Strip(s) == s[i..j] && Margins(s, i, j)
  {
    var i := SpaceRunEnd(s, 0);
    var t := s[i..];
    var j := SpaceRunStart(t, |t|);
    SpaceRunEndSpaces(s, 0);
    SpaceRunStartSpaces(t, |t|);
    assert forall k :: i + j <= k < |s| ==> s[k] == t[k - i];
    assert Margins(s, i, i + j);
    assert t[..j] == s[i..i + j];
  }

  /** Everything of s outside s[i..j] is whitespace. */
  predicate Margins(s: string, i: nat, j: nat)
    requires i <= j <= |s|
  {
    forall k :: 0 <= k < |s| && (k < i || j <= k) ==> IsSpace(s[k])
  }

  lemma TrimLeftKeepsText(s: string)
    ensures RemoveSpaces(TrimLeft(s)) == RemoveSpaces(s)
  {
    var a := SpaceRunEnd(s, 0);
    SpaceRunEndSpaces(s, 0);
    assert s == s[..a] + s[a..];
    RemoveSpacesAppend(s[..a], s[a..]);
    RemoveSpacesOfSpaces(s[..a]);
  }

  lemma TrimRightKeepsText(t: string)
    ensures RemoveSpaces(TrimRight(t)) == RemoveSpaces(t)
  {
    var b := SpaceRunStart(t, |t|);
    SpaceRunStartSpaces(t, |t|);
    assert t == t[..b] + t[b..];
    RemoveSpacesAppend(t[..b], t[b..]);
    RemoveSpacesOfSpaces(t[b..]);
  }

  /** Only whitespace is removed: stripping keeps the non-whitespace
      characters, in order. */
  lemma StripKeepsText(s: string)
    ensures RemoveSpaces(Strip(s)) == RemoveSpaces(s)
  {
    TrimLeftKeepsText(s);
    TrimRightKeepsText(TrimLeft(s));
  }

  /** The words of s from position i on. */
  function SplitFrom(s: string, i: nat): (r: seq<string>)
    requires i <= |s|
    ensures forall k :: 0 <= k < |r| ==> r[k] != []
    decreases |s| - i
  {
    var a := SpaceRunEnd(s, i);
    if a == |s| then []
    else
      var b := WordEnd(s, a);
      var rest := SplitFrom(s, b);
      assert forall k :: 0 < k < |[s[a..b]] + rest| ==> ([s[a..b]] + rest)[k] == rest[k - 1];
      [s[a..b]] + rest
  }

  /** `s.split()`: the maximal runs of non-whitespace characters, in order;
      no word is empty. */
  function Split(s: string): (r: seq<string>)
    ensures forall k :: 0 <= k < |r| ==> r[k] != []
  {
    SplitFrom(s, 0)
  }

  lemma {:induction false} SplitFromNoSpace(s: string, i: nat)
    requires i <= |s|
    ensures forall k :: 0 <= k < |SplitFrom(s, i)| ==> NoSpace(SplitFrom(s, i)[k])
    decreases |s| - i
  {
    var a := SpaceRunEnd(s, i);
    if a < |s| {
      var b := WordEnd(s, a);
      WordEndNoSpace(s, a);
      SplitFromNoSpace(s, b);
      var r := SplitFrom(s, i);
      assert r == [s[a..b]] + SplitFrom(s, b);
      assert forall k :: 0 < k < |r| ==> r[k] == SplitFrom(s, b)[k - 1];
    }
  }

  /** Where each word of SplitFrom(s, i) starts. */
  function WordStartsFrom(s: string, i: nat): seq<nat>
    requires i <= |s|
    decreases |s| - i
  {
    var a := SpaceRunEnd(s, i);
    if a == |s| then [] else [a] + WordStartsFrom(s, WordEnd(s, a))
  }

  /** w occurs in s at p as a whole run: whitespace or an end of s on both sides. */
  predicate RunAt(s: string, p: nat, w: string) {
    && p + |w| <= |s| && s[p..p + |w|] == w
    && (p == 0 || IsSpace(s[p - 1]))
    && (p + |w| == |s| || IsSpace(s[p + |w|]))
  }

  lemma {:induction false} SplitFromRuns(s: string, i: nat)
    requires i <= |s|
    requires 0 < i < |s| ==> IsSpace(s[i])
    ensures |WordStartsFrom(s, i)| == |SplitFrom(s, i)|
    ensures forall k :: 0 <= k < |SplitFrom(s, i)| ==>
      i <= WordStartsFrom(s, i)[k] && RunAt(s, WordStartsFrom(s, i)[k], SplitFrom(s, i)[k])
    ensures forall k :: 0 < k < |SplitFrom(s, i)| ==>
      WordStartsFrom(s, i)[k - 1] + |SplitFrom(s, i)[k - 1]| < WordStartsFrom(s, i)[k]
    decreases |s| - i
  {
    var a := SpaceRunEnd(s, i);
    SpaceRunEndSpaces(s, i);
    if a < |s| {
      var b := WordEnd(s, a);
      SplitFromRuns(s, b);
      var r, p := SplitFrom(s, i), WordStartsFrom(s, i);
      var rest, prest := SplitFrom(s, b), WordStartsFrom(s, b);
      assert r == [s[a..b]] + rest && p == [a] + prest;
      assert a == 0 || IsSpace(s[a - 1]);
      assert RunAt(s, a, s[a..b]);
      assert forall k :: 0 < k < |r| ==> r[k] == rest[k - 1] && p[k] == prest[k - 1];
      if rest != [] {
        assert SpaceRunEnd(s, b) > b;
      }
    }
  }

  /** Where each word of `s.split()` starts in s. */
  function WordStarts(s: string): seq<nat> {
    WordStartsFrom(s, 0)
  }

  /** The words of `s.split()` are maximal runs of s, in order: each occurs
      at its start with whitespace or an end of s on both sides, and each
      starts after the previous one ends. With SplitKeepsAllText this
      leaves exactly one possible split. */
  lemma SplitWordsAreRuns(s: string)
    ensures |WordStarts(s)| == |Split(s)|
    ensures forall k :: 0 <= k < |Split(s)| ==> RunAt(s, WordStarts(s)[k], Split(s)[k])
    ensures forall k :: 0 < k < |Split(s)| ==> WordStarts(s)[k - 1] + |Split(s)[k - 1]| < WordStarts(s)[k]
  {
    SplitFromRuns(s, 0);
  }

  /** No word of `s.split()` holds whitespace. */
  lemma SplitWordsHaveNoSpace(s: string)
    ensures forall k :: 0 <= k < |Split(s)| ==> NoSpace(Split(s)[k])
  {
    SplitFromNoSpace(s, 0);
  }

  function Concat(ws: seq<string>): string {
    if ws == [] then [] else ws[0] + Concat(ws[1..])
  }

  /** The characters of `s` that are not whitespace, in order. */
  function RemoveSpaces(s: string): string {
    if s == [] then [] else (if IsSpace(s[0]) then [] else [s[0]]) + RemoveSpaces(s[1..])
  }

  lemma {:induction false} RemoveSpacesAppend(a: string, b: string)
    ensures RemoveSpaces(a + b) == RemoveSpaces(a) + RemoveSpaces(b)
  {
    if a != [] {
      assert (a + b)[1..] == a[1..] + b;
      RemoveSpacesAppend(a[1..], b);
    } else {
      assert a + b == b;
    }
  }

  lemma {:induction false} RemoveSpacesOfSpaces(s: string)
    requires forall i :: 0 <= i < |s| ==> IsSpace(s[i])
    ensures RemoveSpaces(s) == []
  {
    if s != [] {
      RemoveSpacesOfSpaces(s[1..]);
    }
  }

  lemma {:induction false} RemoveSpacesOfWord(s: string)
    requires NoSpace(s)
    ensures RemoveSpaces(s) == s
  {
    if s != [] {
      RemoveSpacesOfWord(s[1..]);
    }
  }

  /** Dropping a run of whitespace does not change the non-whitespace text. */
  lemma SkipSpaces(s: string, i: nat, a: nat)
    requires i <= a <= |s|
    requires forall k :: i <= k < a ==> IsSpace(s[k])
    ensures RemoveSpaces(s[i..]) == RemoveSpaces(s[a..])
  {
    assert s[i..] == s[i..a] + s[a..];
    RemoveSpacesAppend(s[i..a], s[a..]);
    RemoveSpacesOfSpaces(s[i..a]);
  }

  /** Dropping a word moves it to the front of the non-whitespace text. */
  lemma SkipWord(s: string, a: nat)
    requires a <= |s|
    ensures RemoveSpaces(s[a..]) == s[a..WordEnd(s, a)] + RemoveSpaces(s[WordEnd(s, a)..])
  {
    var b := WordEnd(s, a);
    WordEndNoSpace(s, a);
    RemoveSpacesOfWord(s[a..b]);
    assert s[a..] == s[a..b] + s[b..];
    RemoveSpacesAppend(s[a..b], s[b..]);
  }

  lemma {:induction false} SplitFromKeepsAllText(s: string, i: nat)
    requires i <= |s|
    ensures Concat(SplitFrom(s, i)) == RemoveSpaces(s[i..])
    decreases |s| - i
  {
    var a := SpaceRunEnd(s, i);
    SpaceRunEndSpaces(s, i);
    SkipSpaces(s, i, a);
    if a < |s| {
      var b := WordEnd(s, a);
      SkipWord(s, a);
      SplitFromKeepsAllText(s, b);
      var r := [s[a..b]] + SplitFrom(s, b);
      assert r[1..] == SplitFrom(s, b);
      assert Concat(r) == s[a..b] + Concat(SplitFrom(s, b));
    } else {
      assert s[a..] == [];
    }
  }

  /** Splitting loses nothing but whitespace: the words, put back together,
      are exactly the non-whitespace characters of the line. */
  lemma SplitKeepsAllText(s: string)
    ensures Concat(Split(s)) == RemoveSpaces(s)
  {
    SplitFromKeepsAllText(s, 0);
    assert s[0..] == s;
  }

  /** `s.split(sep)` for a one-character separator: the pieces between
      separators, in order; there is always one more piece than separators. */
  function SplitOn(s: string, sep: char): (r: seq<string>)
    ensures |r| >= 1
    ensures forall k :: 0 <= k < |r| ==> sep !in r[k]
  {
    if s == [] then [[]]
    else
      var rest := SplitOn(s[1..], sep);
      if s[0] == sep then [[]] + rest else [[s[0]] + rest[0]] + rest[1..]
  }

  /** `sep.join(parts)` */
  function Join(sep: string, parts: seq<string>): string {
    if parts == [] then []
    else if |parts| == 1 then parts[0]
    else parts[0] + sep + Join(sep, parts[1..])
  }

  /** `sep.join(s.split(sep)) == s` */
  lemma {:induction false} JoinSplitOn(s: string, sep: char)
    ensures Join([sep], SplitOn(s, sep)) == s
  {
    if s != [] {
      var rest := SplitOn(s[1..], sep);
      JoinSplitOn(s[1..], sep);
      if s[0] == sep {
        assert ([[]] + rest)[1..] == rest;
        assert s == [sep] + s[1..];
      } else if |rest| == 1 {
        assert s == [s[0]] + s[1..];
      } else {
        var parts := [[s[0]] + rest[0]] + rest[1..];
        assert parts[1..] == rest[1..];
        assert Join([sep], rest) == rest[0] + [sep] + Join([sep], rest[1..]);
        assert s == [s[0]] + s[1..];
      }
    }
  }

  function DigitValue(c: char): nat
    requires IsDigit(c)
  {
    c as int - '0' as int
  }

  function DigitChar(d: nat): (c: char)
    requires d < 10
    ensures IsDigit(c) && DigitValue(c) == d
  {
    ('0' as int + d) as char
  }

  /** s[lo..hi] consists of decimal digits. */
  predicate DigitsIn(s: string, lo: nat, hi: nat)
    requires lo <= hi <= |s|
  {
    forall i :: lo <= i < hi ==> IsDigit(s[i])
  }

  /** The value of the decimal digits s[lo..hi] (0 for an empty range). */
  function DigitsValue(s: string, lo: nat, hi: nat): nat
    requires lo <= hi <= |s| && DigitsIn(s, lo, hi)
  {
    DigitsPrefix(s, lo, hi - lo)
  }

  /** The value of the first n digits from lo. */
  function DigitsPrefix(s: string, lo: nat, n: nat): nat
    requires lo + n <= |s| && DigitsIn(s, lo, lo + n)
  {
    if n == 0 then 0 else DigitsPrefix(s, lo, n - 1) * 10 + DigitValue(s[lo + n - 1])
  }

  /** Where the digits start after an optional leading sign at lo. */
  function SignEnd(s: string, lo: nat): (k: nat)
    requires lo <= |s|
    ensures lo <= k <= |s| && k <= lo + 1
  {
    if lo < |s| && (s[lo] == '+' || s[lo] == '-') then lo + 1 else lo
  }

  /** s[lo..] starts with a minus sign. */
  predicate Negative(s: string, lo: nat)
    requires lo <= |s|
  {
    lo < |s| && s[lo] == '-'
  }

  /** s[lo..hi] is an optional sign followed by at least one digit, and
      nothing else: its value. */
  function SignedDigits(s: string, lo: nat, hi: nat): Option<int>
    requires lo <= hi <= |s|
  {
    var d := SignEnd(s, lo);
    if d < hi && DigitsIn(s, d, hi) then
      var v := DigitsValue(s, d, hi);
      Some(if Negative(s, lo) then -(v as int) else v)
    else None
  }

  /** `int(s)` on a string, as Python 2 reads it: surrounding whitespace, an
      optional sign, whitespace again after the sign, and at least one
      decimal digit; anything else is a ValueError (None). */
  function ParseInt(s: string): Option<int> {
    var t := Strip(s);
    var d := SpaceRunEnd(t, SignEnd(t, 0));
    if d < |t| && DigitsIn(t, d, |t|) then
      var v := DigitsValue(t, d, |t|);
      Some(if Negative(t, 0) then -(v as int) else v)
    else None
  }

  /** The stripped text has whitespace between its sign and its digits. */
  predicate SpaceAfterSign(t: string) {
    SignEnd(t, 0) < |t| && IsSpace(t[SignEnd(t, 0)])
  }

  /** The decimal representation Python's `str(n)` gives an integer. */
  function ShowNat(n: nat): (s: string)
    ensures s != [] && DigitsIn(s, 0, |s|)
  {
    if n < 10 then [DigitChar(n)] else ShowNat(n / 10) + [DigitChar(n % 10)]
  }

  function ShowInt(n: int): string {
    if n < 0 then "-" + ShowNat(-n) else ShowNat(n)
  }

  /** The value of a range of digits does not depend on what follows it. */
  lemma {:induction false} DigitsValuePrefix(a: string, b: string, lo: nat, n: nat)
    requires lo + n <= |a| && DigitsIn(a, lo, lo + n)
    ensures DigitsIn(a + b, lo, lo + n) && DigitsPrefix(a + b, lo, n) == DigitsPrefix(a, lo, n)
  {
    assert forall i :: lo <= i < lo + n ==> (a + b)[i] == a[i];
    if n > 0 {
      DigitsValuePrefix(a, b, lo, n - 1);
    }
  }

  /** Shifting a digit range along with its string keeps its value. */
  lemma {:induction false} DigitsValueShift(a: string, b: string, lo: nat, n: nat)
    requires lo + n <= |b| && DigitsIn(b, lo, lo + n)
    ensures DigitsIn(a + b, |a| + lo, |a| + lo + n)
    ensures DigitsPrefix(a + b, |a| + lo, n) == DigitsPrefix(b, lo, n)
  {
    assert forall i :: lo <= i < lo + n ==> (a + b)[|a| + i] == b[i];
    if n > 0 {
      DigitsValueShift(a, b, lo, n - 1);
    }
  }

  lemma {:induction false} DigitsValueShowNat(n: nat)
    ensures DigitsValue(ShowNat(n), 0, |ShowNat(n)|) == n
  {
    if n >= 10 {
      var a := ShowNat(n / 10);
      DigitsValueShowNat(n / 10);
      var s := ShowNat(n);
      assert s == a + [DigitChar(n % 10)];
      DigitsValuePrefix(a, [DigitChar(n % 10)], 0, |a|);
      assert DigitsPrefix(s, 0, |s|) == DigitsPrefix(s, 0, |a|) * 10 + DigitValue(s[|a|]);
    }
  }

  /** Reading back a printed integer gives the integer: `int(str(n)) == n`. */
  lemma ParseIntShowInt(n: int)
    ensures ParseInt(ShowInt(n)) == Some(n)
  {
    var s := ShowInt(n);
    var m := if n < 0 then -n else n;
    var d := ShowNat(m);
    DigitsValueShowNat(m);
    assert !IsSpace(s[0]) && !IsSpace(s[|s| - 1]);
    assert Strip(s) == s;
    if n < 0 {
      assert s == "-" + d;
      DigitsValueShift("-", d, 0, |d|);
      assert SignEnd(s, 0) == 1;
    } else {
      assert SignEnd(s, 0) == 0;
    }
  }

  /** The first index in [lo, hi) holding c, or hi if there is none. */
  function IndexOf(s: string, c: char, lo: nat, hi: nat): (k: nat)
    requires lo <= hi <= |s|
    ensures lo <= k <= hi
    ensures k < hi ==> s[k] == c
    decreases hi - lo
  {
    if lo == hi || s[lo] == c then lo else IndexOf(s, c, lo + 1, hi)
  }

  /** The first index in [lo, hi) holding 'e' or 'E', or hi if there is none. */
  function IndexOfExponent(s: string, lo: nat, hi: nat): (k: nat)
    requires lo <= hi <= |s|
    ensures lo <= k <= hi
    ensures k < hi ==> s[k] == 'e' || s[k] == 'E'
    decreases hi - lo
  {
    if lo == hi || s[lo] == 'e' || s[lo] == 'E' then lo else IndexOfExponent(s, lo + 1, hi)
  }

  /** x * 10^e, one power of ten at a time. */
  function Scale10(x: real, e: int): real
    decreases if e < 0 then -e else e
  {
    if e == 0 then x
    else if e > 0 then Scale10(x, e - 1) * 10.0
    else Scale10(x, e + 1) / 10.0
  }

  /** The digits of a float literal in s[lo..hi] before its exponent: digits
      with at most one point and at least one digit in all ("12", "1.5", ".5",
      "5."). */
  function Mantissa(s: string, lo: nat, hi: nat): Option<real>
    requires lo <= hi <= |s|
  {
    var p := IndexOf(s, '.', lo, hi);
    var f := if p < hi then p + 1 else p;
    if DigitsIn(s, lo, p) && DigitsIn(s, f, hi) && (p - lo) + (hi - f) > 0 then
      Some(DigitsValue(s, lo, p) as real + Scale10(DigitsValue(s, f, hi) as real, -(hi - f)))
    else None
  }

  /** `float(s)` on a string: surrounding whitespace, an optional sign, a
      mantissa and an optional exponent ('e' or 'E', optional sign, digits).
      The value is the exact decimal, not its nearest double. */
  function ParseReal(s: string): Option<real> {
    var t := Strip(s);
    var a := SignEnd(t, 0);
    var k := IndexOfExponent(t, a, |t|);
    var m :- Mantissa(t, a, k);
    var e :- if k < |t| then SignedDigits(t, k + 1, |t|) else Some(0);
    var x := Scale10(m, e);
    Some(if Negative(t, 0) then -x else x)
  }

  /** A text `int()` accepts is accepted by `float()` with the same value,
      unless whitespace follows its sign: Python 2's `int()` skips it and
      its `float()` refuses it. */
  lemma ParseRealOfInt(s: string, n: int)
    requires ParseInt(s) == Some(n)
    ensures !SpaceAfterSign(Strip(s)) ==> ParseReal(s) == Some(n as real)
    ensures SpaceAfterSign(Strip(s)) ==> ParseReal(s) == None
  {
    var t := Strip(s);
    var a := SignEnd(t, 0);
    var d := SpaceRunEnd(t, a);
    SpaceRunEndSpaces(t, a);
    assert forall i :: a <= i < |t| ==> t[i] != '.' && t[i] != 'e' && t[i] != 'E' by {
      forall i | a <= i < |t| ensures t[i] != '.' && t[i] != 'e' && t[i] != 'E' {
        if i >= d { assert IsDigit(t[i]); } else { assert IsSpace(t[i]); }
      }
    }
    assert IndexOfExponent(t, a, |t|) == |t|;
    assert IndexOf(t, '.', a, |t|) == |t|;
    if SpaceAfterSign(t) {
      assert !DigitsIn(t, a, |t|);
    } else {
      assert d == a;
      assert Mantissa(t, a, |t|) == Some(DigitsValue(t, a, |t|) as real);
    }
  }

  /** Python 2 reads "- 5" with `int()` but not with `float()`. */
  lemma IntSkipsSpaceAfterSign()
    ensures ParseInt("- 5") == Some(-5) && ParseReal("- 5") == None
  {
    var s := "- 5";
    assert Strip(s) == s;
    assert SignEnd(s, 0) == 1 && SpaceRunEnd(s, 1) == 2;
    assert DigitsValue(s, 2, 3) == 5;
    ParseRealOfInt(s, -5);
  }
}

=== FILE: wrappers.dfy ===
/** Failure-compatible wrappers used for the Python code's exceptions. */
module Wrappers {

  datatype Option<+T> = None | Some(value: T) {
    predicate IsFailure() { None? }

    function PropagateFailure<U>(): Option<U>
      requires None?
    {
      None
    }

    function Extract(): T
      requires Some?
    {
      value
    }
  }

  /** Success carries the value a Python call returns; Failure the exception it raises. */
  datatype Result<+T, +E> = Success(value: T) | Failure(error: E) {
    predicate IsFailure() { Failure? }

    function PropagateFailure<U>(): Result<U, E>
      requires Failure?
    {
      Failure(error)
    }

    function Extract(): T
      requires Success?
    {
      value
    }
  }
}
